=== FILE: README.md ===
# clitter, modelled in Dafny

clitter is a small framework for command-line applications in Node.js. An
application extends the `Clitter` class and declares each command as a
method named `cmd_<name>`. `run()` reads the first positional argument and
calls the matching handler, falling back to `help` when no command is given;
an unknown command terminates the program. The built-in
`cmd_help` prints a help page. It builds that page from a help record the
application extends with `Help({...})` and from the registry of commands
that `getCommands()` collects along the class chain. The class also has
helpers: `indent`, `padder`, a `confirm` prompt, `exec`, a throttled
progress bar and a spinner.

This project models that core as pure functions over immutable datatypes,
one module per component:

- `Options` (options.dfy): `Option` and `Result`.
- `JsStrings` (jsstrings.dfy): the JavaScript string operations the core relies on (`split`, `join`, `indexOf`, `replace(/x/g)`, `padStart`/`padEnd`, `trimStart`, `String(n)`), over strings as sequences of code points (see "Left out").
- `Terminal` (terminal.dfy): coloured output as opaque style tags.
- `Helpers` (helpers.dfy): `indent`, `padder`, the `confirm` validator and loop, and the string form of `exec`.
- `HelpMerge` (helpmerge.dfy): `Help(obj)`, over a small model of JavaScript values and `Object.assign`.
- `Registry` (registry.dfy): `getCommands()`.
- `Dispatcher` (dispatcher.dfy): `run()` and `terminate()`, as traces of the calls they make.
- `HelpPage` (helppage.dfy): `cmd_help()`, as the list of lines it logs, plus readers that recover the listed commands and examples from those lines. It reads the help record as the typed `HelpDoc`, while `HelpMerge` works on the same record as a JavaScript value; the two are separate views of one record (see "Left out").
- `ProgressBar` (progressbar.dfy): the progress bar, with the clock and terminal width as parameters.
- `Spinner` (spinner.dfy): the spinner, with the interval timer as an explicit transition.

Where the code behaves differently from what its comments and its
documentation describe, the model follows the code:

- Overridden commands are not de-duplicated: a command is listed once per class that declares it.
- Array values in `Help` are `Object.assign`ed (overwritten by index), not concatenated.
- The progress bar forces its last repaint only when the step lands exactly on the total. Ticking past the total is throttled like any other tick, and each unthrottled tick at or past the total writes another newline.
- A zero total is not guarded. The bar lengths and the percentage become `NaN`.
- Nothing stops the spinner from being stopped twice. Each `done`/`fail` paints a final frame.
- A hidden command still runs when typed, because dispatch looks the handler up on the instance.

## Model

| member | source | states |
|---|---|---|
| JsStrings.JoinSplit | index.js:349-352 | joining the pieces of `split` with the same separator gives back the original text |
| JsStrings.IndexOf | index.js:313 | `-1` exactly when the element is absent; otherwise the position of its first occurrence |
| JsStrings.ReplaceAllFacts | index.js:157 | replacing every `-` keeps the length, turns each `-` into `_`, leaves no `-`, and changes no other character |
| JsStrings.PadStartFacts | index.js:360 | `padStart` never truncates: the length is max(length, width) with a nonempty filler, and the text stays a suffix |
| JsStrings.PadEndFacts | index.js:362 | `padEnd` never truncates: the length is max(length, width) with a nonempty filler, and the text stays a prefix |
| JsStrings.TrimStart | index.js:199 | the result is a suffix of the input, starts with a non-whitespace character, and everything dropped was whitespace |
| JsStrings.NatDigitsValue | index.js:402 | the decimal digits `String(n)` produces read back as `n` |
| Helpers.IndentLines | index.js:339-350 | one output line per input line, each being spacer, then prefix, then the original line |
| Helpers.Indent | index.js:339-352 | with a spacer and prefix free of newlines, the result splits back into exactly the indented lines; with an empty spacer and no prefix it is the text itself |
| Helpers.IndentIdentity | index.js:348-352 | joining the lines indented with an empty spacer and no prefix gives back the text |
| Helpers.TrimmedIndent | index.js:339-352 | `indent(spacer, text).trimStart()` with a blank one-line spacer: when the first line of the text holds more than whitespace, the result splits into that line with its leading whitespace trimmed, then every later line behind the spacer; a blank first line vanishes with its newline, leaving the trimmed indent of the later lines |
| Helpers.IndentKeepsLines | index.js:348-352 | with a spacer and prefix free of newlines, the joined indented lines split back into exactly those lines, as many as the input had |
| Helpers.MakePadder | index.js:355 | the padder keeps the alignment and the width it was given, and its pad character defaults to a space |
| Helpers.Pad | index.js:358-365 | the padder throws exactly for an alignment other than `>` or `<`; `>` keeps the text as a suffix, `<` as a prefix, neither truncates |
| Helpers.PadderThrowsOnlyWhenCalled | index.js:355-366 | creating a padder never fails; calling it fails exactly for an invalid alignment; a valid padder with a nonempty pad character returns max(length, width) characters, keeping the text as a suffix for `>` and as a prefix for `<` |
| Helpers.ConfirmAnswer | index.js:609-618 | true exactly for `y`/`Y` or an empty answer with default true; false exactly for `n`/`N` or an empty answer with default false; anything else asks again |
| Helpers.Confirm | index.js:607-621 | the loop answers exactly when some typed answer is accepted, and the answer is that of the first accepted one |
| Helpers.ExecArgs | index.js:680-689 | with a space after position 0 the command has no space and the arguments are space-free pieces; otherwise the whole string is the command and there are no arguments |
| Helpers.ExecArgsRoundTrip | index.js:680-689 | command and arguments joined by single spaces give back the string `exec` was given |
| HelpMerge.Put | index.js:121-127 | the assigned key holds the new value and every other key keeps its value; existing keys keep their position and key uniqueness is preserved |
| HelpMerge.Assign | index.js:121 | `Object.assign` throws exactly on a null or undefined target; object onto object copies every source key over the target, array onto array overwrites by index |
| HelpMerge.AssignProps | index.js:121 | after `Object.assign` of two objects the keys are those of both, each key of the source holds the source's value and every other key keeps the target's |
| HelpMerge.Overwrite | index.js:121 | `Object.assign` of two arrays: as long as the longer one, the source's elements first, the target's tail after them |
| HelpMerge.ConcatValues | index.js:124 | `[].concat(a, b)` holds every element `a` contributes (its items, or `a` itself), unchanged and in order, then every element `b` contributes, and nothing else; an existing array stays a prefix |
| HelpMerge.MergeRule | index.js:119-127 | arrays and non-null objects take the `Object.assign` branch and the concatenation branch is never taken |
| HelpMerge.MergeWith | index.js:118-128 | for any choice of branch per value: no key is removed, a completed merge holds exactly the old keys and those of `obj`, and only a value sent to `Object.assign` can stop the loop |
| HelpMerge.Help | index.js:116-132 | a completed `Help` leaves exactly the old keys and those of `obj`; it can only stop early at an object or array value, never at a scalar |
| HelpMerge.HelpStep | index.js:118-128 | one turn of the loop merges the first key by the per-key rule and carries on with the rest, or stops at a throwing assign |
| HelpMerge.HelpIsPointwise | index.js:116-132 | `Help` merges a prefix of the keys of `obj`, each on its own by the per-key rule; it logs an error only when an object value meets a null or undefined current value |
| HelpMerge.MergeKeepsEarlierEntries | index.js:119-121 | merging an object into an object keeps every old entry and adds the new ones, the new value winning on a shared key |
| HelpMerge.CommandsMergedTwice | index.js:116-129 | two `Help` calls that declare `commands: {a}` and then `commands: {b}` leave both commands in the record |
| HelpMerge.ArraysOverwriteByIndex | index.js:119-124 | merging an array into an array overwrites by index instead of concatenating |
| HelpMerge.HideIsOverwrittenNotConcatenated | index.js:101-124 | `hide: ['x']` merged onto `hide: ['help']` yields `['x']` |
| HelpMerge.IntendedRule | index.js:119-127 | with the array test first, arrays concatenate, plain objects merge and everything else overrides |
| HelpMerge.IntendedArraysConcatenate | index.js:122-124 | with the intended rule an array merge appends the new entries after every earlier one; `hide` becomes `['help', 'x']` |
| Registry.ClassCommands | index.js:291-296 | a name is collected from a class exactly when the class declares `cmd_<name>` |
| Registry.ClassCommandsCounts | index.js:291-296 | each name occurs in a class's list as many times as the class has a `cmd_<name>` method |
| Registry.ClassCommandsInOrder | index.js:291-296 | the collected names, with `cmd_` put back, are exactly the class's `cmd_` methods in declaration order |
| Registry.CollectedBaseFirst | index.js:285-309 | the collected list is the base classes' commands followed by the most derived class's own, in declaration order |
| Registry.CollectedMembers | index.js:284-309 | a name is collected exactly when some class of the chain declares its `cmd_` method |
| Registry.OverrideCollectedTwice | index.js:308-309 | a command declared by two classes of the chain is collected twice |
| Registry.RemoveFirst | index.js:312-316 | removing a hidden name deletes exactly its first occurrence, keeps the order of the rest, and changes nothing when it is absent |
| Registry.RemoveHidden | index.js:311-316 | the hide loop removes one copy per hide entry while one is left and keeps the order of what remains; the copies removed are the earliest, so the result equals `Survivors`, which keeps an entry exactly when at least as many copies of its name stand before it as the hide list names |
| Registry.SpendIsSurvivors | index.js:311-316 | the position-wise `Survivors` equals a front-to-back walk that drops a copy while the hide budget still names it |
| Registry.HideDropsBaseCopy | index.js:311-316 | a leaf overriding a base command `a` and hiding it once keeps the leaf's copy in the leaf's place: `[a, b, a]` with hide `[a]` gives `[b, a]` |
| Registry.GetCommands | index.js:278-319 | the registry holds the collected commands less one copy per hide entry while one is left, the rest in collected order, and it is exactly the `Survivors` of the collected list: each hide entry takes the earliest remaining copy |
| Registry.RegistryCounts | index.js:278-319 | each command is listed as many times as classes declare it, less the times it is hidden, never below zero |
| Registry.OverriddenListedTwice | index.js:278-319 | an overridden command that is not hidden is listed at least twice |
| Registry.ListedIff | index.js:278-319 | a command is listed exactly when it is declared more often than hidden, and only declared commands are listed |
| Dispatcher.CommandKey | index.js:156-158 | no key exactly when there is no first positional or it is empty; otherwise the positional with every `-` turned into `_` and every other character kept |
| Dispatcher.HandlerName | index.js:164-166 | the handler is `cmd_` followed by the key, or `cmd_help` without a key |
| Dispatcher.Terminate | index.js:139-145 | exactly the error report, then `shutdown` with the exit code when defined, then the exit with that code (default 1); no handler runs |
| Dispatcher.Run | index.js:149-177 | `init` sees the key first when defined; the named handler runs exactly when it exists, right after `init`, followed only by `shutdown(0)` when defined and the handler did not throw; otherwise right after `init` come the invalid-command error, `shutdown(1)` when defined and the exit with code 1, and nothing else |
| Dispatcher.DisplayName | index.js:198 | the shown name has the same length, every `_` shown as `-` and other characters kept; a name without `-` of its own turns back into itself as a command key |
| Dispatcher.SpellingIndependent | index.js:156-158 | names differing only in `-` versus `_` reach the same handler |
| Dispatcher.DisplayedNameDispatches | index.js:156-166 | typing a command as the help page shows it (with `-` for `_`) runs that command's handler |
| Dispatcher.HiddenCommandStillRuns | index.js:164-172 | a command with a handler runs when typed whether or not the registry lists it, and one hidden at least as often as declared is not listed |
| Dispatcher.NoCommandRunsHelp | index.js:156-172 | with no command, `init` sees `null`, `cmd_help` runs, and `shutdown(0)` comes last |
| HelpPage.ColumnWidth | index.js:190 | the column is at most the cap, every name fits unless the cap was hit, and some name is at least as wide |
| HelpPage.FlagsSection | index.js:255-263 | no Flags section without flags; otherwise a header and one line per flag, in key order, on one column capped at 20 |
| HelpPage.CommandLine | index.js:198 | a command line reads as a command and as no example; its name column is the displayed name padded with spaces to the column width, never cut |
| HelpPage.CommandLineDescription | index.js:198-199 | after the name column come two spaces, then the description: its first line with leading whitespace trimmed, then each later line behind `cmdWidth + 5` spaces; a blank first line vanishes with its newline; an empty description leaves only the two spaces |
| HelpPage.FlagLineDescription | index.js:259-262 | after the flag column come two spaces, then the description: its first line with leading whitespace trimmed, then each later line behind `flagWidth + 4` spaces; a blank first line vanishes with its newline; an empty description leaves only the two spaces |
| HelpPage.SectionsLines | index.js:265-270 | one header and one indented text per custom section, in key order, and nothing else |
| HelpPage.SectionTextLines | index.js:196 | a section text is one line in which every line of the text stands two spaces in |
| HelpPage.LineKinds | index.js:198-202 | a command line reads as its padded display name, an example line as its indented example text, and an example description line as neither |
| HelpPage.ExampleListRead | index.js:247-250 | a list of examples shows every example once and in order, and names no command |
| HelpPage.BlockRead | index.js:216-253 | each command block lists exactly its own command and shows its examples in order, whatever the help shape and group marker |
| HelpPage.SectionNames | index.js:216-253 | the Commands section lists the registry's commands in order, one per command |
| HelpPage.SectionExamples | index.js:213-253 | the Commands section shows the examples of each command, command by command in registry order |
| HelpPage.BlockInSection | index.js:213-253 | each command's block (its group marker lines, then its command line and examples) sits between the blocks of the commands before it and those after it |
| HelpPage.Page | index.js:181-274 | the page starts with the title and ends with an empty line; its command lines are the registry entries, each entry once and in registry order, with `_` shown as `-`, padded to one column; no other line reads as a command; its example lines are the commands' examples, command by command in registry order, and no other line reads as an example |
| HelpPage.PageLayout | index.js:204-273 | the page is, in order: the title, the about text when set, the Commands header, the Commands section, the Flags section, the custom sections and the closing empty line |
| HelpPage.CommandColumn | index.js:190-198 | the command column is at most 9 wide; names that fit are padded to it; longer names are kept whole |
| HelpPage.GroupMarkerLines | index.js:221-228 | a `true` group marker puts a blank line before the command, a name puts a group header, and a missing or falsy marker puts nothing |
| HelpPage.ExamplesShown | index.js:201-202 | examples appear in order under their command; with `cmdPrepend` each reads `<app> <cmd> <example>`, with `app` as the fallback name |
| ProgressBar.Setup | index.js:400-404 | the layout is recomputed from the total and the terminal width and nothing else changes |
| ProgressBar.SetupSizes | index.js:402 | the counter width is the digit count of `String(total)`: 1 for totals 0 to 9, 10^(w-1) <= total < 10^w for a positive total, and one more than the digits of `-total` for a negative one |
| ProgressBar.New | index.js:373-398 | counters start at zero, the rate defaults to 200 ms, the width to 60 columns, and the layout is set up |
| ProgressBar.SetTotal | index.js:406-416 | a nonzero new total replaces the total, else the delta is added; the layout always follows and the counters stay |
| ProgressBar.SetCurrent | index.js:418-425 | a nonzero new step replaces the current step, else the delta is added; nothing else changes |
| ProgressBar.Complete | index.js:427-429 | the current step becomes the total and nothing else changes |
| ProgressBar.CountersKeepLayout | index.js:418-429 | moving the counters never disturbs the layout |
| ProgressBar.TruncDiv | index.js:453 | `parseInt` of a quotient: the magnitude is the rounded-down quotient of magnitudes and the sign is the quotient's sign |
| ProgressBar.FrameOf | index.js:451-476 | filled plus remaining is the bar width; all lengths are NaN exactly when the total is 0; the line is closed exactly when the step has reached the total |
| ProgressBar.FrameBounds | index.js:451-465 | within the total the filled length is the proportional share rounded down, between 0 and the bar width, and the percentage is in [0, 100]; a finished bar is fully filled at 100% |
| ProgressBar.GlyphRun | index.js:462-463 | a run has the requested length, is empty for NaN or non-positive lengths, and holds only the glyph |
| ProgressBar.Render | index.js:460-470 | inside the brackets exactly `filled` green squares, then exactly `remaining` dots (none for NaN or a negative length), then `] `; then the percentage with `%` padded to 4, a bar separator, and the current step padded to the counter width; the text ends with a slash, the total and a bar separator |
| ProgressBar.FinishedFrameText | index.js:460-468 | a finished bar with a positive total ends its text with `100%`, a bar separator, the total over the total, and a bar separator |
| ProgressBar.RenderedBarWidth | index.js:460-465 | the filled and remaining glyph runs together are exactly the bar width |
| ProgressBar.Tick | index.js:431-476 | the step advances by the tick's argument, 1 when it is omitted; a frame is painted exactly when the interval has passed or the step equals the total; the repaint time moves only on a paint; a painted frame closes the line exactly when the step has reached the total |
| ProgressBar.StepwiseClosesOnce | index.js:431-476 | ticking one step at a time up to the total, at any times, closes the line exactly once, on the last tick |
| ProgressBar.TenTicks | index.js:431-476 | ten single-step ticks on a bar of ten write exactly one newline, at the end |
| ProgressBar.OvershootIsThrottled | index.js:437 | a tick from 9 to 12 of 10 inside the update interval paints nothing, so the line stays open |
| ProgressBar.TickIntended | index.js:431-442 | the corrected tick advances the step and paints the frame of the new state |
| ProgressBar.TickIntendedFinishes | index.js:437-476 | the corrected tick always paints and closes the line when it carries the bar to or past the total, and otherwise behaves as `tick` |
| Spinner.New | index.js:483-505 | a new spinner is running, not complete, before the first glyph, with "Processing" as the default message |
| Spinner.NextPos | index.js:548-551 | the position advances by one and wraps to 0 after the last glyph |
| Spinner.Repaint | index.js:520-542 | only the position changes; while running it moves one glyph on, modulo 10, and the frame shows the glyph at the new position with the spinner's own message; once complete nothing moves, and the final mark shows the success flag with the given message, or the spinner's own when that is falsy |
| Spinner.TimerFire | index.js:502-504 | a firing writes a frame exactly while the timer runs, changes nothing once it is cleared, and otherwise only moves the position: the next glyph with the spinner's message |
| Spinner.FrameText | index.js:526-541 | the cursor is hidden exactly by in-progress frames and shown again, with a newline, exactly by final ones; a green check marks success and a red cross failure |
| Spinner.Done | index.js:507-512 | `done` clears the timer, marks the spinner complete and successful, and paints the check mark |
| Spinner.Fail | index.js:514-518 | `fail` clears the timer and marks the spinner complete; it leaves `isSuccess` as it was |
| Spinner.FramesCycleGlyphs | index.js:526-553 | while running, the k-th frame shows the glyph k positions past the start, modulo 10, with the spinner's message |
| Spinner.FreshSpinnerFrames | index.js:496-553 | from a new spinner, the k-th frame shows glyph (k - 1) mod 10 |
| Spinner.NothingAfterFinish | index.js:507-518 | after `done` or `fail` no timer firing writes anything |
| Spinner.FailAfterDone | index.js:507-541 | `fail` after `done` shows the check mark again, and a second `done` paints again |
| Spinner.FailShowsCross | index.js:514-538 | a failure before any success shows the cross with the given or default message |

## Left out

- Argument parsing (the external `minimist` module) is not modelled. `run` receives the parsed positionals as a list of strings. A numeric first positional is outside the model: `minimist` turns it into a number, so `0` is falsy and runs `cmd_help`, and any other number makes `.replace` throw.
- Output goes to the console, stdout, `readline` and `process.exit`. It is modelled as event traces (`Dispatcher`), line lists (`HelpPage`) and frames (`ProgressBar`, `Spinner`). Colour escape codes are opaque style tags.
- Awaiting `init`, the handler and `shutdown` is not modelled; only their order is. `terminate` does not await `shutdown` before exiting, and the trace lists the two calls in source order.
- `Dispatcher.Run`: a handler that throws is a boolean input. The exception itself propagates out of `run` and is not modelled.
- The prompts themselves (`_prompt`, stdin) are I/O. Only the validator `confirm` passes and the answer loop over a given list of typed answers are modelled.
- Of `exec`, only the conversion of a string command into `[command, args]` is modelled. Spawning the process and forwarding its output are I/O.
- `HelpMerge.Assign`: `Object.assign` onto a primitive (which boxes it) and onto an array from an object with named keys lead outside the value model. They yield `OutsideModel`.
- JavaScript orders integer-like object keys first. The model keeps insertion order only.
- `HelpMerge.Help`: after a failed merge `Help` returns `undefined`, and the caller's `help = this.Help(...)` stores that. The model returns the partly merged record instead and leaves that assignment to the caller.
- HelpPage: malformed command help (an array without a second element, non-string values) throws a TypeError in the source. It is not modelled.
- `HelpPage.HelpOf`, `HelpPage.GroupLines`: the help record's `commands` and `group` are modelled as maps, so a command without an entry has none. In the source they are plain objects, and a command named like an `Object.prototype` member (`cmd_constructor`, `cmd_toString`, `cmd_valueOf`, `cmd_hasOwnProperty`) with no entry of its own finds the inherited member. The group lookup then prints the function's source text as a group header (index.js:220-227). The commands lookup makes `cmdHelp[1][0]` throw a TypeError (index.js:241), so `help` crashes. The model prints an ordinary command line with an empty description instead.
- JsStrings: strings are sequences of Unicode code points, so lengths, `padStart`/`padEnd` and the column widths of the help page (index.js:190, 198, 259, 262) count code points. JavaScript counts UTF-16 code units. The two disagree for characters outside the Basic Multilingual Plane: with flags `-a` and `😀😀` the source pads the flag column to 4 and the model to 2.
- The conversion from the merged help value of `HelpMerge` to the `HelpDoc` record that `HelpPage` reads is not modelled. Each module takes its view of the record as input.
- HelpPage: only `true` and strings are modelled as group markers. Falsy strings stand for every falsy value.
- `HelpPage.ColumnWidth`: for an empty command list the source computes `-Infinity`, not 0. No command line uses the width then.
- `ProgressBar.FrameOf`: computes `parseInt(barWidth * current / steps)` exactly. Floating-point rounding can make the source one lower: 29 of 100 shows 28%. A ratio below 1e-6 prints in exponent notation and `parseInt` misreads it. Neither is modelled.
- ProgressBar: throughput and ETA are floating-point readings of the wall clock since `barStart`. They are left out of the frame, which stops at the step counter.
- ProgressBar: totals and steps are integers. Non-numeric totals (such as `undefined`, whose `String` is nine characters long) are not modelled.
- Spinner: each firing of the 100 ms interval is one `TimerFire` step, so real timing is not modelled. The unused `opts` argument and a `null` message (which is printed as "null") are not modelled. A missing message is `None`.

## Findings

| source | as written | input that shows it | evidently intended | confidence | as-written member | corrected member |
|---|---|---|---|---|---|---|
| index.js:119-124 | the array branch comes after the `typeof === 'object'` test, which arrays also pass, so it never runs and arrays are `Object.assign`ed (overwritten by index) | help `hide: ['help']`, then `Help({hide: ['x']})`: the result is `['x']` | arrays concatenate, as the comment "merge array" and the later `[].concat` say: `['help', 'x']` | medium, not executed | HelpMerge.HideIsOverwrittenNotConcatenated | HelpMerge.IntendedArraysConcatenate |
| index.js:437 | the forced final repaint tests `currentStep != steps`, so a tick that jumps past the total is throttled like any other | total 10, current 9, last repaint at 1000 ms, `tick(3)` at 1100 ms: nothing is painted and the line stays open | the tick that reaches or passes the total always paints and closes the line, as the `>=` test of "close line, if finished" expects | medium, not executed | ProgressBar.OvershootIsThrottled | ProgressBar.TickIntendedFinishes |

=== FILE: dispatcher.dfy ===
/** The entry point `run` and its error exit `terminate` (index.js:139-177).

    Argument parsing is external: the parsed positionals arrive as a list of
    strings. The observable behaviour is the sequence of calls `run` makes
    (the optional `init` and `shutdown` hooks, the handler, the error report
    and `process.exit`), modelled as an event trace. The instance's callable
    properties are a set of names. */
module Dispatcher {
  import opened JsStrings
  import opened Options
  import Registry

  /** Which of the optional lifecycle hooks the application defines. */
  datatype Hooks = Hooks(hasInit: bool, hasShutdown: bool)

  datatype Event =
    | Init(cmd: Option<string>)        // `init(cmd)`, `None` standing for `null`
    | Invoke(handler: string)          // `this[handler](argv)`
    | ErrorMessage(msg: string)        // `console.error('[err]', msg)`
    | Shutdown(code: int)              // `shutdown(code)`
    | Exit(code: int)                  // `process.exit(code)`

  const InvalidCommand: string := "invalid command, run \"help\" to see available commands"

  /** The command key: the first positional with every `-` turned into `_`,
      or `None` (`null`) when there is no positional or it is empty. */
  function CommandKey(positionals: seq<string>): (cmd: Option<string>)
    ensures cmd.None? <==> |positionals| == 0 || positionals[0] == ""
    ensures cmd.Some? ==> |cmd.value| == |positionals[0]| && '-' !in cmd.value
    ensures cmd.Some? ==> forall i :: 0 <= i < |cmd.value| && positionals[0][i] == '-' ==> cmd.value[i] == '_'
    ensures cmd.Some? ==> forall i :: 0 <= i < |cmd.value| && positionals[0][i] != '-' ==> cmd.value[i] == positionals[0][i]
  {
    if |positionals| > 0 && positionals[0] != "" then
      ReplaceAllFacts(positionals[0], '-', '_');
      Some(ReplaceAll(positionals[0], '-', '_'))
    else None
  }

  /** The property `run` looks up: `cmd_<key>`, or `cmd_help` without a key. */
  function HandlerName(cmd: Option<string>): (h: string)
    ensures StartsWith(h, Registry.Prefix)
    ensures cmd.Some? ==> h[4..] == cmd.value
    ensures cmd.None? ==> h[4..] == "help"
  {
    match cmd
    case Some(c) => Registry.Prefix + c
    case None => "cmd_help"
  }

  /** `terminate(msg, code = 1)`: report, let `shutdown` run, exit. */
  function Terminate(msg: string, code: Option<int>, hooks: Hooks): (trace: seq<Event>)
    ensures |trace| == if hooks.hasShutdown then 3 else 2
    ensures trace[0] == ErrorMessage(msg)
    ensures trace[|trace| - 1] == Exit(code.GetOr(1))
    ensures forall c :: Shutdown(c) in trace <==> hooks.hasShutdown && c == code.GetOr(1)
    ensures forall h :: Invoke(h) !in trace
  {
    var c := code.GetOr(1);
    [ErrorMessage(msg)] + (if hooks.hasShutdown then [Shutdown(c)] else []) + [Exit(c)]
  }

  /** `run()`. A handler that throws ends the run at once: the dispatcher
      does not catch it, so `shutdown` is not called. */
  function Run(positionals: seq<string>, handlers: set<string>, hooks: Hooks, handlerThrows: bool): (trace: seq<Event>)
    ensures |trace| > 0
    ensures hooks.hasInit <==> trace[0] == Init(CommandKey(positionals))
    ensures forall h :: Invoke(h) in trace <==> h == HandlerName(CommandKey(positionals)) && h in handlers
    ensures var start := if hooks.hasInit then 1 else 0;
      HandlerName(CommandKey(positionals)) !in handlers ==>
      && |trace| == start + (if hooks.hasShutdown then 3 else 2)
      && trace[start] == ErrorMessage(InvalidCommand)
      && trace[|trace| - 1] == Exit(1)
      && (forall c :: Shutdown(c) in trace <==> hooks.hasShutdown && c == 1)
    ensures var start := if hooks.hasInit then 1 else 0;
      HandlerName(CommandKey(positionals)) in handlers ==>
      && |trace| == start + (if hooks.hasShutdown && !handlerThrows then 2 else 1)
      && trace[start] == Invoke(HandlerName(CommandKey(positionals)))
      && (forall c :: Exit(c) !in trace)
      && (forall m :: ErrorMessage(m) !in trace)
      && (forall c :: Shutdown(c) in trace <==> hooks.hasShutdown && !handlerThrows && c == 0)
      && (Shutdown(0) in trace ==> trace[|trace| - 1] == Shutdown(0) && trace[|trace| - 2].Invoke?)
  {
    var cmd := CommandKey(positionals);
    var init := if hooks.hasInit then [Init(cmd)] else [];
    var handler := HandlerName(cmd);
    if handler in handlers then
      init + [Invoke(handler)]
        + (if hooks.hasShutdown && !handlerThrows then [Shutdown(0)] else [])
    else
      init + Terminate(InvalidCommand, None, hooks)
  }

  /** "long-name" and "long_name" (and any mix) reach the same handler. */
  lemma SpellingIndependent(a: string, b: string)
    requires |a| == |b|
    requires forall i :: 0 <= i < |a| ==> a[i] == b[i] || (a[i] in "-_" && b[i] in "-_")
    ensures CommandKey([a]) == CommandKey([b])
  {
    if a != "" {
      var ka := ReplaceAll(a, '-', '_');
      var kb := ReplaceAll(b, '-', '_');
      assert forall i :: 0 <= i < |a| ==> ka[i] == kb[i];
      assert ka == kb;
      assert [a][0] == a && [b][0] == b && b != "";
    }
  }

  /** The name the help page shows for a command: `_` written as `-`. A
      name without `-` of its own turns back into itself as a command key. */
  function DisplayName(cmd: string): (shown: string)
    ensures |shown| == |cmd| && '_' !in shown
    ensures forall i :: 0 <= i < |cmd| && cmd[i] == '_' ==> shown[i] == '-'
    ensures forall i :: 0 <= i < |cmd| && cmd[i] != '_' ==> shown[i] == cmd[i]
    ensures '-' !in cmd ==> ReplaceAll(shown, '-', '_') == cmd
  {
    ReplaceAllFacts(cmd, '_', '-');
    var shown := ReplaceAll(cmd, '_', '-');
    assert '-' !in cmd ==> forall i :: 0 <= i < |cmd| ==> ReplaceAll(shown, '-', '_')[i] == cmd[i];
    shown
  }

  /** All `cmd_` methods of the class chain are callable properties of the
      instance. */
  ghost predicate HandlersCover(chain: seq<seq<string>>, handlers: set<string>)
  {
    forall i, m :: 0 <= i < |chain| && m in chain[i] ==> m in handlers
  }

  /** Typing a command the way the help page shows it runs that command.
      Names holding a `-` of their own cannot round-trip, as the dispatcher
      turns every `-` into `_`. */
  lemma DisplayedNameDispatches(chain: seq<seq<string>>, handlers: set<string>, hooks: Hooks,
                                c: string, handlerThrows: bool)
    requires HandlersCover(chain, handlers)
    requires exists i :: 0 <= i < |chain| && Registry.Prefix + c in chain[i]
    requires '-' !in c && c != ""
    ensures CommandKey([DisplayName(c)]) == Some(c)
    ensures Invoke(Registry.Prefix + c) in Run([DisplayName(c)], handlers, hooks, handlerThrows)
  {
    var shown := DisplayName(c);
    var key := ReplaceAll(shown, '-', '_');
    assert forall i :: 0 <= i < |c| ==> key[i] == c[i];
    assert key == c;
  }

  /** Hiding only removes a command from the help page: dispatch looks the
      name up on the instance, not in the registry, so a command runs
      whether or not it is listed, and one hidden at least as often as it
      is declared is not listed. */
  lemma HiddenCommandStillRuns(chain: seq<seq<string>>, hidden: seq<string>, handlers: set<string>,
                               hooks: Hooks, c: string, handlerThrows: bool)
    requires Registry.Prefix + c in handlers
    requires '-' !in c && c != ""
    ensures Invoke(Registry.Prefix + c) in Run([c], handlers, hooks, handlerThrows)
    ensures multiset(Registry.Collected(chain))[c] <= multiset(hidden)[c] ==> c !in Registry.GetCommands(chain, hidden)
  {
    Registry.ListedIff(chain, hidden, c);
    assert [c][0] == c;
    ReplaceAllFacts(c, '-', '_');
    assert forall i :: 0 <= i < |c| ==> ReplaceAll(c, '-', '_')[i] == c[i];
    assert ReplaceAll(c, '-', '_') == c;
  }

  /** With no command given, `init` sees `null` and the help command runs. */
  lemma NoCommandRunsHelp(positionals: seq<string>, handlers: set<string>, hooks: Hooks)
    requires |positionals| == 0 || positionals[0] == ""
    requires "cmd_help" in handlers
    ensures var t := Run(positionals, handlers, hooks, false);
      && (hooks.hasInit ==> t[0] == Init(None))
      && Invoke("cmd_help") in t
      && (hooks.hasShutdown ==> t[|t| - 1] == Shutdown(0))
  {
  }
}

=== FILE: helpers.dfy ===
/** The small pure helpers of the `Clitter` class: `indent`, `padder`, the
    answer validator inside `confirm` and the command-string split at the top
    of `exec`. */
module Helpers {
  import opened JsStrings
  import opened Options

  // ---- indent ---------------------------------------------------------------

  /** Every piece, with `head` put in front of it. */
  function PrefixAll(head: string, parts: seq<string>): (lines: seq<string>)
    ensures |lines| == |parts|
    ensures forall i :: 0 <= i < |parts| ==> lines[i] == head + parts[i]
    decreases |parts|
  {
    if |parts| == 0 then []
    else [head + parts[0]] + PrefixAll(head, parts[1..])
  }

  /** `indent(spacer, text, {array: true, prefix})`: one output line per line
      of `text` (as `text.split('\n')` cuts it), each being spacer, then prefix,
      then the line. A falsy prefix is passed as "". */
  function IndentLines(spacer: string, text: string, prefix: string): (lines: seq<string>)
    ensures |lines| == |Split(text, '\n')|
    ensures forall i :: 0 <= i < |lines| ==> lines[i] == spacer + prefix + Split(text, '\n')[i]
  {
    PrefixAll(spacer + prefix, Split(text, '\n'))
  }

  /** `indent(spacer, text, {prefix})`: the indented lines joined by
      newlines. With a one-line spacer and prefix it splits back into exactly
      the indented lines; with neither it is the text itself. */
  function Indent(spacer: string, text: string, prefix: string): (r: string)
    ensures '\n' !in spacer + prefix ==> Split(r, '\n') == IndentLines(spacer, text, prefix)
    ensures spacer == "" && prefix == "" ==> r == text
  {
    IndentKeepsLines(spacer, text, prefix);
    IndentIdentity(text);
    Join(IndentLines(spacer, text, prefix), '\n')
  }

  /** With an empty spacer and prefix the joined lines are the text. */
  lemma IndentIdentity(text: string)
    ensures Join(IndentLines("", text, ""), '\n') == text
  {
    var parts := Split(text, '\n');
    assert forall i :: 0 <= i < |parts| ==> "" + parts[i] == parts[i];
    assert PrefixAll("", parts) == parts;
    JoinSplit(text, '\n');
  }

  /** The joined lines split back into the indented lines, as many as the
      input had, as long as the spacer and prefix are one-line strings. */
  lemma IndentKeepsLines(spacer: string, text: string, prefix: string)
    ensures '\n' !in spacer + prefix ==>
      Split(Join(IndentLines(spacer, text, prefix), '\n'), '\n') == IndentLines(spacer, text, prefix)
      && |IndentLines(spacer, text, prefix)| == |Split(text, '\n')|
  {
    if '\n' !in spacer + prefix {
      var lines := IndentLines(spacer, text, prefix);
      var parts := Split(text, '\n');
      forall i | 0 <= i < |lines| ensures '\n' !in lines[i] {
        assert lines[i] == spacer + prefix + parts[i];
        assert '\n' !in parts[i];
      }
      SplitJoin(lines, '\n');
    }
  }

  /** `indent(spacer, text).trimStart()` with a blank one-line spacer: when
      the first line of `text` holds more than whitespace, the result splits
      into that line with its leading whitespace trimmed, followed by the
      other lines, each behind the spacer; when the first line is blank, it
      and its newline are trimmed away along with it, leaving the trimmed
      indent of the remaining lines. */
  lemma TrimmedIndent(spacer: string, text: string)
    requires Blank(spacer) && '\n' !in spacer
    ensures var parts := Split(text, '\n');
      var after := TrimStart(Indent(spacer, text, ""));
      && (!Blank(parts[0]) ==> Split(after, '\n') == [TrimStart(parts[0])] + IndentLines(spacer, text, "")[1..])
      && (Blank(parts[0]) ==> after == TrimStart(Indent(spacer, Join(parts[1..], '\n'), "")))
  {
    var parts := Split(text, '\n');
    var lines := IndentLines(spacer, text, "");
    IndentedLinesFacts(spacer, text);
    assert Indent(spacer, text, "") == Join(lines, '\n');
    if !Blank(parts[0]) {
      TrimKeptFirst(lines, spacer, parts[0]);
    } else {
      assert Blank(lines[0]) by {
        forall i | 0 <= i < |lines[0]| ensures IsJsWhitespace(lines[0][i]) {
          if i >= |spacer| { assert lines[0][i] == parts[0][i - |spacer|]; }
        }
      }
      TrimBlankFirst(lines);
      if |lines| == 1 {
        EmptyIndent(spacer);
        TrimStartBlank(spacer, "");
        assert spacer + "" == spacer;
      } else {
        SplitJoin(parts[1..], '\n');
        assert IndentLines(spacer, Join(parts[1..], '\n'), "") == lines[1..];
      }
    }
  }

  /** The lines of an indent are the spacer before each line, and hold no
      newline. */
  lemma IndentedLinesFacts(spacer: string, text: string)
    requires '\n' !in spacer
    ensures var lines := IndentLines(spacer, text, "");
      && lines[0] == spacer + Split(text, '\n')[0]
      && forall i :: 0 <= i < |lines| ==> '\n' !in lines[i]
  {
    var parts := Split(text, '\n');
    var lines := IndentLines(spacer, text, "");
    assert spacer + "" == spacer;
    forall i | 0 <= i < |lines| ensures '\n' !in lines[i] {
      assert lines[i] == spacer + parts[i];
      assert '\n' !in parts[i];
    }
  }

  /** Trimming joined lines whose first is a blank spacer before a line that
      is not blank trims only that first line. */
  lemma TrimKeptFirst(lines: seq<string>, spacer: string, first: string)
    requires |lines| >= 1 && lines[0] == spacer + first
    requires Blank(spacer) && !Blank(first)
    requires forall i :: 0 <= i < |lines| ==> '\n' !in lines[i]
    ensures Split(TrimStart(Join(lines, '\n')), '\n') == [TrimStart(first)] + lines[1..]
  {
    assert '\n' !in first by {
      forall i | 0 <= i < |first| ensures first[i] != '\n' {
        assert first[i] == lines[0][|spacer| + i];
      }
    }
    if |lines| == 1 {
      assert Join(lines, '\n') == spacer + first;
      TrimKeptOnly(spacer, first);
    } else {
      var rest := Join(lines[1..], '\n');
      assert Join(lines, '\n') == spacer + first + ['\n'] + rest;
      TrimKeptLine(spacer, first, rest);
      SplitJoin(lines[1..], '\n');
    }
  }

  /** A blank spacer before one line trims down to that line trimmed. */
  lemma TrimKeptOnly(spacer: string, first: string)
    requires Blank(spacer) && '\n' !in first
    ensures Split(TrimStart(spacer + first), '\n') == [TrimStart(first)]
  {
    TrimStartBlank(spacer, first);
    NoSeparatorInSuffix(first, TrimStart(first));
    SplitNoSeparator(TrimStart(first), '\n');
  }

  /** The line-level step of `TrimKeptFirst`: trimming stops in the first
      line, and the rest is split as it stands. */
  lemma TrimKeptLine(spacer: string, first: string, rest: string)
    requires Blank(spacer) && !Blank(first) && '\n' !in first
    ensures Split(TrimStart(spacer + first + ['\n'] + rest), '\n') == [TrimStart(first)] + Split(rest, '\n')
  {
    TrimThroughLine(spacer, first, rest);
    NoSeparatorInSuffix(first, TrimStart(first));
    SplitConcat(TrimStart(first), rest, '\n');
  }

  /** Trimming a blank spacer, a line that is not blank and whatever follows
      its newline trims that line alone. */
  lemma TrimThroughLine(spacer: string, first: string, rest: string)
    requires Blank(spacer) && !Blank(first)
    ensures TrimStart(spacer + first + ['\n'] + rest) == TrimStart(first) + ['\n'] + rest
  {
    NotBlankBehind(spacer, first);
    NotBlankAhead(spacer + first, ['\n']);
    TrimStartKeeps(spacer + first + ['\n'], rest);
    TrimStartKeeps(spacer + first, ['\n']);
    TrimStartBlank(spacer, first);
  }

  /** Whatever stands in front, a text that is not blank stays so. */
  lemma NotBlankBehind(front: string, s: string)
    requires !Blank(s)
    ensures !Blank(front + s)
  {
    var i :| 0 <= i < |s| && !IsJsWhitespace(s[i]);
    assert (front + s)[|front| + i] == s[i];
  }

  /** Whatever follows, a text that is not blank stays so. */
  lemma NotBlankAhead(s: string, back: string)
    requires !Blank(s)
    ensures !Blank(s + back)
  {
    var i :| 0 <= i < |s| && !IsJsWhitespace(s[i]);
    assert (s + back)[i] == s[i];
  }

  /** Trimming joined lines whose first is blank trims that line and its
      newline away. */
  lemma TrimBlankFirst(lines: seq<string>)
    requires |lines| >= 1 && Blank(lines[0])
    ensures |lines| == 1 ==> TrimStart(Join(lines, '\n')) == ""
    ensures |lines| > 1 ==> TrimStart(Join(lines, '\n')) == TrimStart(Join(lines[1..], '\n'))
  {
    if |lines| == 1 {
      TrimStartBlank(lines[0], "");
      assert lines[0] + "" == lines[0];
    } else {
      var rest := Join(lines[1..], '\n');
      assert Join(lines, '\n') == (lines[0] + ['\n']) + rest;
      assert Blank(lines[0] + ['\n']);
      TrimStartBlank(lines[0] + ['\n'], rest);
    }
  }

  /** The indent of the empty text is the spacer alone. */
  lemma EmptyIndent(spacer: string)
    ensures Indent(spacer, "", "") == spacer
  {
    assert Split("", '\n') == [""];
    assert IndentLines(spacer, "", "") == [spacer + "" + ""];
    assert spacer + "" + "" == spacer;
  }

  /** A suffix of a line without separators has none either. */
  lemma NoSeparatorInSuffix(line: string, tail: string)
    requires '\n' !in line && |tail| <= |line| && tail == line[|line| - |tail|..]
    ensures '\n' !in tail
  {
    forall i | 0 <= i < |tail| ensures tail[i] != '\n' {
      assert tail[i] == line[|line| - |tail| + i];
    }
  }

  // ---- padder ---------------------------------------------------------------

  /** The function `padder(align, width, padChar)` returns, as its captured
      arguments. Creating one never fails, whatever `align` is. */
  datatype Padder = Padder(align: string, width: int, padChar: string)

  /** `padder(align, width, padChar=' ')`. */
  function MakePadder(align: string, width: int, padChar: Option<string>): (p: Padder)
    ensures p.align == align && p.width == width
    ensures p.padChar == padChar.GetOr(" ")
  {
    Padder(align, width, padChar.GetOr(" "))
  }

  /** Calling the padder: `'>'` pads at the start (right-aligns), `'<'` pads
      at the end (left-aligns), any other symbol throws at this point. */
  function Pad(p: Padder, s: string): (r: Result<string>)
    ensures r.Threw? <==> p.align != ">" && p.align != "<"
    ensures r.Ok? && |p.padChar| > 0 ==> |r.value| == Max(|s|, p.width)
    ensures p.align == ">" ==> r.Ok? && |s| <= |r.value| && r.value[|r.value| - |s|..] == s
    ensures p.align == "<" ==> r.Ok? && |s| <= |r.value| && r.value[..|s|] == s
  {
    PadStartFacts(s, p.width, p.padChar);
    PadEndFacts(s, p.width, p.padChar);
    if p.align == ">" then Ok(PadStart(s, p.width, p.padChar))
    else if p.align == "<" then Ok(PadEnd(s, p.width, p.padChar))
    else Threw("Padder: invalid align symbol, use < or >")
  }

  /** An invalid align symbol is accepted at creation and reported on every
      call; a valid one never throws, and the padded text is `s` brought to
      the padder's width, right-aligned for `>` and left-aligned for `<`. */
  lemma PadderThrowsOnlyWhenCalled(align: string, width: int, padChar: Option<string>, s: string)
    ensures MakePadder(align, width, padChar).align == align
    ensures Pad(MakePadder(align, width, padChar), s).Threw? <==> align !in {">", "<"}
    ensures align in {">", "<"} && |padChar.GetOr(" ")| > 0 ==>
      |Pad(MakePadder(align, width, padChar), s).value| == Max(|s|, width)
    ensures align == ">" ==> var r := Pad(MakePadder(align, width, padChar), s).value;
      |s| <= |r| && r[|r| - |s|..] == s
    ensures align == "<" ==> var r := Pad(MakePadder(align, width, padChar), s).value;
      |s| <= |r| && r[..|s|] == s
  {
  }

  // ---- confirm --------------------------------------------------------------

  /** The validator `confirm` passes to its prompt: the answer, or `None`
      (`undefined`) to ask again. `dflt` is `Some(b)` exactly when the caller
      passed a boolean default. */
  function ConfirmAnswer(ans: string, dflt: Option<bool>): (r: Option<bool>)
    ensures r == Some(true) <==> ans in {"y", "Y"} || (ans == "" && dflt == Some(true))
    ensures r == Some(false) <==> ans in {"n", "N"} || (ans == "" && dflt == Some(false))
  {
    if ans == "" then (if dflt.Some? then dflt else None)
    else if ans == "y" || ans == "Y" then Some(true)
    else if ans == "n" || ans == "N" then Some(false)
    else None
  }

  /** The `confirm` loop over the answers the user types, in order: the first
      answer the validator accepts, or `None` while every answer so far was
      rejected (the source keeps prompting). */
  function Confirm(answers: seq<string>, dflt: Option<bool>): (r: Option<bool>)
    ensures r.Some? <==> exists i :: 0 <= i < |answers| && ConfirmAnswer(answers[i], dflt).Some?
    ensures r.Some? ==> exists i :: 0 <= i < |answers| && r == ConfirmAnswer(answers[i], dflt)
                                  && forall j :: 0 <= j < i ==> ConfirmAnswer(answers[j], dflt).None?
    decreases |answers|
  {
    if |answers| == 0 then None
    else
      var a := ConfirmAnswer(answers[0], dflt);
      if a.Some? then a
      else
        var r := Confirm(answers[1..], dflt);
        assert forall i :: 1 <= i < |answers| ==> answers[i] == answers[1..][i - 1];
        if r.Some? then
          var k :| 0 <= k < |answers[1..]| && r == ConfirmAnswer(answers[1..][k], dflt)
                   && forall j :: 0 <= j < k ==> ConfirmAnswer(answers[1..][j], dflt).None?;
          assert forall j :: 1 <= j < k + 1 ==> answers[j] == answers[1..][j - 1];
          r
        else r
  }

  // ---- exec -----------------------------------------------------------------

  /** The `[command, args]` pair `exec` hands to `spawn`. */
  datatype Spawn = Spawn(command: string, args: seq<string>)

  /** The string form of `exec(cmd)`: cut at the first space when it is not
      at position 0, and split the rest on single spaces; otherwise the whole
      string is the command and there are no arguments. */
  function ExecArgs(cmd: string): (r: Spawn)
    ensures IndexOf(cmd, ' ') > 0 ==>
      |r.command| > 0 && ' ' !in r.command && |r.args| >= 1
      && forall i :: 0 <= i < |r.args| ==> ' ' !in r.args[i]
    ensures IndexOf(cmd, ' ') <= 0 ==> r.command == cmd && r.args == []
  {
    var idx := IndexOf(cmd, ' ');
    if idx > 0 then Spawn(cmd[..idx], Split(cmd[idx + 1..], ' '))
    else Spawn(cmd, [])
  }

  /** The command string a `Spawn` stands for: command and arguments
      separated by single spaces. */
  function SpawnText(sp: Spawn): string
  {
    if |sp.args| == 0 then sp.command else sp.command + " " + Join(sp.args, ' ')
  }

  /** No character is lost or added by the split: the spawned command line
      is the string `exec` was given. */
  lemma ExecArgsRoundTrip(cmd: string)
    ensures SpawnText(ExecArgs(cmd)) == cmd
  {
    var idx := IndexOf(cmd, ' ');
    if idx > 0 {
      JoinSplit(cmd[idx + 1..], ' ');
      assert cmd == cmd[..idx] + " " + cmd[idx + 1..];
    }
  }
}

=== FILE: helpmerge.dfy ===
/** The help-configuration extender `Help(obj)` (index.js:116-133).

    JavaScript values are modelled with objects as ordered property lists
    (insertion order) and arrays as sequences. For every key of `obj` the
    source picks one of three rules: a non-null value of `typeof` "object" is
    merged into the existing value with `Object.assign`, an array would be
    concatenated, anything else overrides. Because arrays are of `typeof`
    "object" the concatenation rule is never chosen. */
module HelpMerge {
  import opened JsStrings

  datatype JsValue =
    | Undefined | Null | Bool(b: bool) | Num(n: int) | Str(s: string)
    | Arr(items: seq<JsValue>)
    | Obj(props: Props)

  /** An object's own properties, in insertion order. */
  type Props = seq<(string, JsValue)>

  // ---- property lists -------------------------------------------------------

  function Keys(ps: Props): set<string>
    decreases |ps|
  {
    if |ps| == 0 then {} else {ps[0].0} + Keys(ps[1..])
  }

  /** A JavaScript object never holds a key twice. */
  predicate UniqueKeys(ps: Props)
    decreases |ps|
  {
    |ps| == 0 || (ps[0].0 !in Keys(ps[1..]) && UniqueKeys(ps[1..]))
  }

  /** `o[k]`: the value under `k`, `undefined` when there is none. */
  function Get(ps: Props, k: string): JsValue
    decreases |ps|
  {
    if |ps| == 0 then Undefined
    else if ps[0].0 == k then ps[0].1
    else Get(ps[1..], k)
  }

  lemma {:induction false} GetMissing(ps: Props, k: string)
    requires k !in Keys(ps)
    ensures Get(ps, k) == Undefined
    decreases |ps|
  {
    if |ps| > 0 { GetMissing(ps[1..], k); }
  }

  /** `o[k] = v`: an existing key keeps its place, a new key goes last. */
  function Put(ps: Props, k: string, v: JsValue): (r: Props)
    ensures Keys(r) == Keys(ps) + {k}
    ensures Get(r, k) == v
    ensures forall k' :: k' != k ==> Get(r, k') == Get(ps, k')
    ensures UniqueKeys(ps) ==> UniqueKeys(r)
    ensures |r| == if k in Keys(ps) then |ps| else |ps| + 1
    ensures forall i :: 0 <= i < |ps| ==> r[i].0 == ps[i].0
    decreases |ps|
  {
    if |ps| == 0 then [(k, v)]
    else if ps[0].0 == k then [(k, v)] + ps[1..]
    else
      var r := [ps[0]] + Put(ps[1..], k, v);
      assert r[1..] == Put(ps[1..], k, v);
      r
  }

  /** `Object.assign` between two plain objects: every property of `source`
      is written into `target`, in order. */
  function AssignProps(target: Props, source: Props): (r: Props)
    ensures Keys(r) == Keys(target) + Keys(source)
    ensures UniqueKeys(target) ==> UniqueKeys(r)
    ensures UniqueKeys(source) ==> forall k :: k in Keys(source) ==> Get(r, k) == Get(source, k)
    ensures forall k :: k !in Keys(source) ==> Get(r, k) == Get(target, k)
    decreases |source|
  {
    if |source| == 0 then target
    else AssignProps(Put(target, source[0].0, source[0].1), source[1..])
  }

  /** `Object.assign` between two arrays: element i of `source` overwrites
      element i of `target`; longer targets keep their tail. */
  function Overwrite(target: seq<JsValue>, source: seq<JsValue>): (r: seq<JsValue>)
    ensures |r| == Max(|target|, |source|)
    ensures forall i :: 0 <= i < |source| ==> r[i] == source[i]
    ensures forall i :: |source| <= i < |target| ==> r[i] == target[i]
  {
    if |source| >= |target| then source else source + target[|source|..]
  }

  /** The properties of an array seen as an object: "0", "1", ... */
  function IndexProps(items: seq<JsValue>, start: nat): (r: Props)
    ensures |r| == |items|
    ensures forall i :: 0 <= i < |items| ==> r[i] == (NatDigits(start + i), items[i])
    decreases |items|
  {
    if |items| == 0 then []
    else [(NatDigits(start), items[0])] + IndexProps(items[1..], start + 1)
  }

  lemma {:induction false} IndexPropsKeys(items: seq<JsValue>, start: nat, k: string)
    requires k in Keys(IndexProps(items, start))
    ensures exists j :: start <= j < start + |items| && k == NatDigits(j)
    decreases |items|
  {
    var r := IndexProps(items, start);
    if r[0].0 != k {
      assert r[1..] == IndexProps(items[1..], start + 1);
      IndexPropsKeys(items[1..], start + 1, k);
    }
  }

  /** Index keys are distinct, since distinct numbers have distinct digits. */
  lemma {:induction false} IndexPropsUnique(items: seq<JsValue>, start: nat)
    ensures UniqueKeys(IndexProps(items, start))
    decreases |items|
  {
    if |items| > 0 {
      var r := IndexProps(items, start);
      assert r[1..] == IndexProps(items[1..], start + 1);
      IndexPropsUnique(items[1..], start + 1);
      if NatDigits(start) in Keys(r[1..]) {
        IndexPropsKeys(items[1..], start + 1, NatDigits(start));
        var j :| start + 1 <= j < start + |items| && NatDigits(start) == NatDigits(j);
        NatDigitsValue(start);
        NatDigitsValue(j);
        assert false;
      }
    }
  }

  // ---- Object.assign ----------------------------------------------------------

  /** What `Object.assign(target, source)` produces. `OutsideModel` covers the
      merges whose result this value domain cannot express: a primitive target
      (turned into a wrapper object) and named properties put on an array. */
  datatype Assigned = Assigned(value: JsValue) | TypeError | OutsideModel

  /** `Object.assign(target, source)`; `Help` only passes object or array
      sources, the others are outside the value domain. */
  function Assign(target: JsValue, source: JsValue): (r: Assigned)
    ensures r == TypeError <==> target.Null? || target.Undefined?
    ensures target.Obj? && source.Obj? ==>
      r.Assigned? && r.value == Obj(AssignProps(target.props, source.props))
    ensures target.Arr? && source.Arr? ==>
      r.Assigned? && r.value == Arr(Overwrite(target.items, source.items))
    ensures target.Obj? && source.Arr? ==>
      r.Assigned? && r.value.Obj?
      && Keys(r.value.props) == Keys(target.props) + Keys(IndexProps(source.items, 0))
      && forall i :: 0 <= i < |source.items| ==> Get(r.value.props, NatDigits(i)) == source.items[i]
  {
    match target
    case Undefined => TypeError
    case Null => TypeError
    case Obj(t) =>
      if source.Obj? then Assigned(Obj(AssignProps(t, source.props)))
      else if !source.Arr? then OutsideModel
      else
        var ip := IndexProps(source.items, 0);
        IndexPropsUnique(source.items, 0);
        assert forall i :: 0 <= i < |source.items| ==> NatDigits(i) in Keys(ip) && Get(ip, NatDigits(i)) == source.items[i] by {
          forall i | 0 <= i < |source.items|
            ensures NatDigits(i) in Keys(ip) && Get(ip, NatDigits(i)) == source.items[i]
          {
            GetUnique(ip, i);
          }
        }
        Assigned(Obj(AssignProps(t, ip)))
    case Arr(t) =>
      if source.Arr? then Assigned(Arr(Overwrite(t, source.items)))
      else if source.Obj? && |source.props| == 0 then Assigned(target)
      else OutsideModel
    case _ => OutsideModel
  }

  /** In a list with unique keys, the value under the i-th key is the i-th value. */
  lemma {:induction false} GetUnique(ps: Props, i: nat)
    requires UniqueKeys(ps) && i < |ps|
    ensures ps[i].0 in Keys(ps) && Get(ps, ps[i].0) == ps[i].1
    decreases i
  {
    if i > 0 {
      GetUnique(ps[1..], i - 1);
      assert ps[1..][i - 1] == ps[i];
    }
  }

  /** The elements a value contributes to `[].concat`: an array's items, or
      the value itself. */
  function Spread(v: JsValue): (r: seq<JsValue>)
    ensures v.Arr? ==> r == v.items
    ensures !v.Arr? ==> r == [v]
  {
    if v.Arr? then v.items else [v]
  }

  /** `[].concat(a, b)`: every element `a` contributes, unchanged and in
      order, followed by every element `b` contributes; nothing else. */
  function ConcatValues(a: JsValue, b: JsValue): (r: seq<JsValue>)
    ensures |r| == |Spread(a)| + |Spread(b)|
    ensures r[..|Spread(a)|] == Spread(a)
    ensures r[|Spread(a)|..] == Spread(b)
    ensures a.Arr? ==> a.items <= r
    ensures !b.Arr? ==> r[|r| - 1] == b
  {
    Spread(a) + Spread(b)
  }

  // ---- the three rules ------------------------------------------------------

  /** `typeof v`. */
  function TypeOf(v: JsValue): string
  {
    match v
    case Undefined => "undefined"
    case Bool(_) => "boolean"
    case Num(_) => "number"
    case Str(_) => "string"
    case _ => "object"
  }

  datatype Rule = AssignRule | ConcatRule | OverrideRule

  /** The branch `Help` takes for a value, checked in the source's order: a
      non-null object, else an array, else anything. Arrays pass the first
      test, so the concatenation branch is dead. */
  function MergeRule(v: JsValue): (r: Rule)
    ensures r != ConcatRule
    ensures r == AssignRule <==> v.Arr? || v.Obj?
  {
    if v != Null && TypeOf(v) == "object" then AssignRule
    else if v.Arr? then ConcatRule
    else OverrideRule
  }

  /** What `Help` leaves behind: the merged record (and returns it), or the
      record as far as it got when `Object.assign` threw (the error is logged
      and `undefined` returned), or a merge outside the value domain. */
  datatype HelpOutcome = Merged(help: Props) | Logged(partial: Props) | Unmodelled(partial: Props)
  {
    function State(): Props
    {
      match this
      case Merged(h) => h
      case Logged(h) => h
      case Unmodelled(h) => h
    }
  }

  /** The loop of `Help`: key by key in the order of `obj`, apply the branch
      `rule` selects for the value. No key is ever removed; a completed merge
      holds exactly the old keys and those of `obj`; and only a value the
      rule sends to `Object.assign` can stop the loop early. */
  function MergeWith(rule: JsValue -> Rule, help: Props, obj: Props): (r: HelpOutcome)
    ensures Keys(help) <= Keys(r.State()) <= Keys(help) + Keys(obj)
    ensures r.Merged? ==> Keys(r.help) == Keys(help) + Keys(obj)
    ensures !r.Merged? ==> exists i :: 0 <= i < |obj| && rule(obj[i].1) == AssignRule
    decreases |obj|
  {
    if |obj| == 0 then Merged(help)
    else
      var (k, v) := obj[0];
      match rule(v)
      case AssignRule =>
        (match Assign(Get(help, k), v)
           case Assigned(nv) => MergeWith(rule, Put(help, k, nv), obj[1..])
           case TypeError => Logged(help)
           case OutsideModel => Unmodelled(help))
      case ConcatRule => MergeWith(rule, Put(help, k, Arr(ConcatValues(Get(help, k), v))), obj[1..])
      case OverrideRule => MergeWith(rule, Put(help, k, v), obj[1..])
  }

  /** `Help(obj)` applied to the current help record `help`, as written: a
      completed call leaves the old keys and those of `obj`; only an object
      or array value can make it stop early (the per-key result is
      `HelpIsPointwise`). */
  function Help(help: Props, obj: Props): (r: HelpOutcome)
    ensures Keys(help) <= Keys(r.State()) <= Keys(help) + Keys(obj)
    ensures r.Merged? ==> Keys(r.help) == Keys(help) + Keys(obj)
    ensures !r.Merged? ==> exists i :: 0 <= i < |obj| && (obj[i].1.Arr? || obj[i].1.Obj?)
  {
    MergeWith(MergeRule, help, obj)
  }

  /** The effect on one key, independently of the loop: object values
      (arrays included) are `Object.assign`ed onto the old value, anything
      else replaces it. */
  function MergeValue(current: JsValue, incoming: JsValue): Assigned
  {
    if incoming.Arr? || incoming.Obj? then Assign(current, incoming) else Assigned(incoming)
  }

  /** One turn of the loop of `Help`, stated with `MergeValue`. */
  lemma HelpStep(help: Props, obj: Props)
    requires |obj| > 0
    ensures var mv := MergeValue(Get(help, obj[0].0), obj[0].1);
      && (mv.Assigned? ==> Help(help, obj) == Help(Put(help, obj[0].0, mv.value), obj[1..]))
      && (mv == TypeError ==> Help(help, obj) == Logged(help))
      && (mv == OutsideModel ==> Help(help, obj) == Unmodelled(help))
  {
  }

  /** `p` is `help` with every key of `obj` merged by `MergeValue` and every
      other key untouched. */
  ghost predicate MergedPointwise(help: Props, obj: Props, p: Props)
  {
    && Keys(p) == Keys(help) + Keys(obj)
    && (forall k :: k in Keys(obj) ==> MergeValue(Get(help, k), Get(obj, k)) == Assigned(Get(p, k)))
    && (forall k :: k !in Keys(obj) ==> Get(p, k) == Get(help, k))
  }

  /** `Help` stopped after the first `n` keys of `obj` with outcome `o`: the
      first `n` keys are merged, and either all keys were, or key `n` is the
      one whose merge threw or left the value domain. */
  ghost predicate StoppedAt(help: Props, obj: Props, o: HelpOutcome, n: nat)
  {
    && n <= |obj|
    && MergedPointwise(help, obj[..n], o.State())
    && (o.Merged? <==> n == |obj|)
    && (o.Logged? ==> n < |obj| && MergeValue(Get(help, obj[n].0), obj[n].1) == TypeError)
    && (o.Unmodelled? ==> n < |obj| && MergeValue(Get(help, obj[n].0), obj[n].1) == OutsideModel)
  }

  /** `Help` is a per-key merge: it stops at the first key whose merge throws
      (an object value meeting a null or undefined existing value) or leaves
      the value domain, and every key before that one is merged and stays
      merged. */
  lemma {:induction false} HelpIsPointwise(help: Props, obj: Props)
    requires UniqueKeys(obj)
    ensures exists n :: StoppedAt(help, obj, Help(help, obj), n)
    ensures Help(help, obj).Logged? ==>
      exists i :: 0 <= i < |obj| && (obj[i].1.Arr? || obj[i].1.Obj?)
                  && (Get(help, obj[i].0).Null? || Get(help, obj[i].0).Undefined?)
    decreases |obj|
  {
    var o := Help(help, obj);
    if |obj| == 0 {
      assert obj[..0] == [];
      assert StoppedAt(help, obj, o, 0);
    } else {
      var k, v := obj[0].0, obj[0].1;
      var rest := obj[1..];
      var mv := MergeValue(Get(help, k), v);
      HelpStep(help, obj);
      if !mv.Assigned? {
        assert obj[..0] == [];
        assert StoppedAt(help, obj, o, 0);
      } else {
        var h1 := Put(help, k, mv.value);
        HelpIsPointwise(h1, rest);
        var n' :| StoppedAt(h1, rest, o, n');
        assert k !in Keys(rest);
        StepStoppedAt(help, obj, mv.value, o, n');
      }
    }
  }

  /** The inductive step of `HelpIsPointwise`. */
  lemma StepStoppedAt(help: Props, obj: Props, nv: JsValue, o: HelpOutcome, n': nat)
    requires |obj| > 0 && obj[0].0 !in Keys(obj[1..])
    requires MergeValue(Get(help, obj[0].0), obj[0].1) == Assigned(nv)
    requires StoppedAt(Put(help, obj[0].0, nv), obj[1..], o, n')
    ensures StoppedAt(help, obj, o, n' + 1)
  {
    var k, v := obj[0].0, obj[0].1;
    var rest := obj[1..];
    var pre := obj[..n' + 1];
    assert pre == [(k, v)] + rest[..n'];
    KeysPrefix(rest, n');
    PointwiseStep(help, k, nv, v, rest[..n'], o.State());
    if n' < |rest| {
      assert obj[n' + 1] == rest[n'];
      KeysElement(rest, n');
      assert rest[n'].0 != k;
    }
  }

  lemma KeysPrefix(ps: Props, n: nat)
    requires n <= |ps|
    ensures Keys(ps[..n]) <= Keys(ps)
    decreases n
  {
    if n > 0 {
      assert ps[..n][1..] == ps[1..][..n - 1];
      KeysPrefix(ps[1..], n - 1);
    }
  }

  lemma KeysElement(ps: Props, i: nat)
    requires i < |ps|
    ensures ps[i].0 in Keys(ps)
    decreases i
  {
    if i > 0 {
      assert ps[1..][i - 1] == ps[i];
      KeysElement(ps[1..], i - 1);
    }
  }

  /** One step of the loop: merging key `k` first and the rest afterwards is
      the pointwise merge of the whole list. */
  lemma PointwiseStep(help: Props, k: string, nv: JsValue, v: JsValue, rest: Props, p: Props)
    requires k !in Keys(rest)
    requires MergeValue(Get(help, k), v) == Assigned(nv)
    requires MergedPointwise(Put(help, k, nv), rest, p)
    ensures MergedPointwise(help, [(k, v)] + rest, p)
  {
    var pre := [(k, v)] + rest;
    assert pre[1..] == rest;
    assert Keys(pre) == {k} + Keys(rest);
    forall x | x in Keys(pre)
      ensures MergeValue(Get(help, x), Get(pre, x)) == Assigned(Get(p, x))
    {
      if x == k {
        GetMissing(rest, k);
      }
    }
  }

  /** Merging an object value into an existing object keeps the old entries
      and adds the new ones, the new value winning on a shared key; so two
      `Help` calls that each add one command keep both. */
  lemma MergeKeepsEarlierEntries(help: Props, obj: Props, k: string)
    requires UniqueKeys(obj)
    requires Get(help, k).Obj? && Get(obj, k).Obj?
    requires UniqueKeys(Get(obj, k).props)
    requires Help(help, obj).Merged?
    ensures var r := Get(Help(help, obj).help, k);
      && r.Obj?
      && Keys(r.props) == Keys(Get(help, k).props) + Keys(Get(obj, k).props)
      && (forall c :: c in Keys(Get(obj, k).props) ==> Get(r.props, c) == Get(Get(obj, k).props, c))
      && (forall c :: c !in Keys(Get(obj, k).props) ==> Get(r.props, c) == Get(Get(help, k).props, c))
  {
    HelpIsPointwise(help, obj);
    var n: nat :| StoppedAt(help, obj, Help(help, obj), n);
    assert obj[..n] == obj;
    if k !in Keys(obj) {
      GetMissing(obj, k);
    }
    assert MergedPointwise(help, obj, Help(help, obj).help);
    assert MergeValue(Get(help, k), Get(obj, k)) == Assigned(Get(Help(help, obj).help, k));
  }

  /** Two extensions that each declare one command, `commands: {a: 'x'}`
      and then `commands: {b: 'y'}`, leave both commands in the record. */
  lemma CommandsMergedTwice(help: Props)
    requires Get(help, "commands").Obj?
    ensures var h1 := Help(help, [("commands", Obj([("a", Str("x"))]))]);
      && h1.Merged?
      && var h2 := Help(h1.help, [("commands", Obj([("b", Str("y"))]))]);
      && h2.Merged?
      && Get(h2.help, "commands").Obj?
      && Get(Get(h2.help, "commands").props, "a") == Str("x")
      && Get(Get(h2.help, "commands").props, "b") == Str("y")
  {
    var o1: Props := [("commands", Obj([("a", Str("x"))]))];
    var o2: Props := [("commands", Obj([("b", Str("y"))]))];
    assert o1[1..] == [] && o2[1..] == [];
    var h1 := Help(help, o1);
    assert h1.Merged?;
    MergeKeepsEarlierEntries(help, o1, "commands");
    var h2 := Help(h1.help, o2);
    assert h2.Merged?;
    MergeKeepsEarlierEntries(h1.help, o2, "commands");
  }

  /** Merging an array value into an existing array overwrites by index:
      the result is never longer than the longer of the two. */
  lemma ArraysOverwriteByIndex(help: Props, obj: Props, k: string)
    requires UniqueKeys(obj)
    requires Get(help, k).Arr? && Get(obj, k).Arr?
    requires Help(help, obj).Merged?
    ensures Get(Help(help, obj).help, k) == Arr(Overwrite(Get(help, k).items, Get(obj, k).items))
  {
    HelpIsPointwise(help, obj);
    var n: nat :| StoppedAt(help, obj, Help(help, obj), n);
    assert obj[..n] == obj;
    if k !in Keys(obj) {
      GetMissing(obj, k);
    }
    assert MergedPointwise(help, obj, Help(help, obj).help);
    assert MergeValue(Get(help, k), Get(obj, k)) == Assigned(Get(Help(help, obj).help, k));
  }

  /** As written, the configuration `hide: ['x']` merged into `hide: ['help']`
      replaces `'help'` instead of adding to it. */
  lemma HideIsOverwrittenNotConcatenated()
    ensures Help([("hide", Arr([Str("help")]))], [("hide", Arr([Str("x")]))])
         == Merged([("hide", Arr([Str("x")]))])
  {
    var help: Props := [("hide", Arr([Str("help")]))];
    var obj: Props := [("hide", Arr([Str("x")]))];
    assert MergeRule(Arr([Str("x")])) == AssignRule;
    assert Get(help, "hide") == Arr([Str("help")]);
    assert Overwrite([Str("help")], [Str("x")]) == [Str("x")];
    assert obj[1..] == [];
  }

  // ---- the evidently intended merge -----------------------------------------

  /** The rule the comments in `Help` describe: arrays concatenate, plain
      objects merge, anything else overrides. */
  function IntendedRule(v: JsValue): (r: Rule)
    ensures r == ConcatRule <==> v.Arr?
    ensures r == AssignRule <==> v.Obj?
  {
    if v.Arr? then ConcatRule
    else if v != Null && TypeOf(v) == "object" then AssignRule
    else OverrideRule
  }

  /** `Help` with the array branch checked first, so that it is reachable. */
  function HelpIntended(help: Props, obj: Props): HelpOutcome
  {
    MergeWith(IntendedRule, help, obj)
  }

  /** With the intended rules an array merge keeps every earlier entry and
      appends the new ones: merging a one-key array configuration onto an
      existing array never fails and concatenates. */
  lemma {:induction false} IntendedArraysConcatenate(help: Props, k: string, items: seq<JsValue>)
    requires Get(help, k).Arr?
    ensures HelpIntended(help, [(k, Arr(items))]) == Merged(Put(help, k, Arr(Get(help, k).items + items)))
    ensures HelpIntended([("hide", Arr([Str("help")]))], [("hide", Arr([Str("x")]))])
         == Merged([("hide", Arr([Str("help"), Str("x")]))])
  {
    var obj: Props := [(k, Arr(items))];
    assert obj[1..] == [];
    assert IntendedRule(Arr(items)) == ConcatRule;
    assert ConcatValues(Get(help, k), Arr(items)) == Get(help, k).items + items;
    var h' := Put(help, k, Arr(Get(help, k).items + items));
    assert MergeWith(IntendedRule, h', obj[1..]) == Merged(h');
    assert MergeWith(IntendedRule, help, obj) == MergeWith(IntendedRule, h', obj[1..]);
    var h: Props := [("hide", Arr([Str("help")]))];
    var o: Props := [("hide", Arr([Str("x")]))];
    assert o[1..] == [];
    assert Get(h, "hide") == Arr([Str("help")]);
    assert [Str("help")] + [Str("x")] == [Str("help"), Str("x")];
  }
}

=== FILE: helppage.dfy ===
/** The help page `cmd_help` (index.js:181-274), as the list of entries it
    logs. Colour wrappers are opaque tags (module `Terminal`). Empty strings
    stand for the source's falsy values (`null`, missing, `''`). */
module HelpPage {
  import opened JsStrings
  import opened Terminal
  import opened Options
  import Helpers
  import Dispatcher

  /** The four shapes a command's help may take. An example description of
      `null` is written as "". */
  datatype CmdHelp =
    | Desc(desc: string)                                         // 'description'
    | OneExample(desc: string, example: string)                  // ['description', 'example']
    | DescribedExample(desc: string, exDesc: string, example: string)
                                                                 // ['description', ['# desc', 'example']]
    | Examples(desc: string, entries: seq<(string, string)>)     // ['description', [[desc|null, 'example'], ...]]

  /** A group marker: `true` (blank line) or a group name. */
  datatype GroupMark = BlankLine | GroupLabel(name: string)

  /** The help record, with flags and sections in their key order. */
  datatype HelpDoc = HelpDoc(
    app: string,
    about: string,
    version: string,
    commands: map<string, CmdHelp>,
    flags: seq<(string, string)>,
    group: map<string, GroupMark>,
    sections: seq<(string, string)>,
    cmdPrepend: bool)

  const CmdWidthCap: nat := 9
  const FlagWidthCap: nat := 20

  function Min(a: int, b: int): int { if a < b then a else b }

  /** The longest length in the list, 0 for an empty list. */
  function MaxLen(names: seq<string>): (m: nat)
    ensures forall i :: 0 <= i < |names| ==> |names[i]| <= m
    ensures |names| > 0 ==> exists i :: 0 <= i < |names| && |names[i]| == m
    decreases |names|
  {
    if |names| == 0 then 0
    else
      var rest := MaxLen(names[1..]);
      assert forall i :: 1 <= i < |names| ==> names[i] == names[1..][i - 1];
      if |names[0]| >= rest then |names[0]| else rest
  }

  /** `Math.min(cap, Math.max(...names.map(n => n.length)))`, computed once
      over the whole list. */
  function ColumnWidth(names: seq<string>, cap: nat): (w: nat)
    ensures w <= cap
    ensures forall i :: 0 <= i < |names| ==> |names[i]| <= w || w == cap
    ensures |names| > 0 ==> exists i :: 0 <= i < |names| && |names[i]| >= w
  {
    Min(cap, MaxLen(names))
  }

  // ---- the pieces of the page -------------------------------------------------

  function AppName(doc: HelpDoc): string
  {
    if doc.app == "" then "app" else doc.app
  }

  /** The header at the top: app name, then the version in gray if any. */
  function TitleLine(doc: HelpDoc): Line
  {
    [Styled(HelpHeader, [Plain(AppName(doc))]
      + (if doc.version != "" then [Paint(Gray, " v" + doc.version)] else []))]
  }

  function HeaderLine(s: string): Line
  {
    [Paint(HelpHeader, s)]
  }

  const EmptyLine: Line := [Plain("")]

  /** `printSection`: a free text block indented by two spaces. */
  function SectionText(text: string): Line
  {
    [Plain(Helpers.Indent(Spaces(2), text, ""))]
  }

  /** `printCm`: the command name with `_` shown as `-`, padded to the column
      (never cut), then the description with its continuation lines indented
      under the first. The line reads back as that padded name and as no
      example. */
  function CommandLine(cmd: string, desc: string, w: nat): (line: Line)
    ensures CommandNameOf(line).Some? && ExampleTextOf(line).None?
    ensures var name := CommandNameOf(line).value;
      && |name| == Max(|cmd|, w)
      && name[..|cmd|] == Dispatcher.DisplayName(cmd)
      && forall i :: |cmd| <= i < |name| ==> name[i] == ' '
  {
    PadEndFacts(Dispatcher.DisplayName(cmd), w, " ");
    [ Plain(Spaces(3)),
      Paint(HelpCmd, PadEnd(Dispatcher.DisplayName(cmd), w, " ")),
      Plain("  " + (if desc != "" then TrimStart(Helpers.Indent(Spaces(w + 5), desc, "")) else "")) ]
  }

  /** `printED`: an example description, each line behind `# `. */
  function ExampleDescLine(desc: string, w: nat): Line
  {
    [Paint(HelpCmdExampleDesc, Helpers.Indent(Spaces(w + 7), desc, "# "))]
  }

  /** The text of an example as shown: `<app> <cmd> <example>` when
      `cmdPrepend` is set (the raw command name, `_` kept), else the example. */
  function ExampleText(doc: HelpDoc, cmd: string, example: string): string
  {
    if doc.cmdPrepend then AppName(doc) + " " + cmd + " " + example else example
  }

  /** `printEx`. */
  function ExampleLine(doc: HelpDoc, cmd: string, example: string, w: nat): Line
  {
    [Paint(HelpCmdExample, Helpers.Indent(Spaces(w + 7), ExampleText(doc, cmd, example), ""))]
  }

  /** The lines a group marker puts before its command. */
  function GroupLines(doc: HelpDoc, cmd: string): seq<Line>
  {
    if cmd !in doc.group then []
    else match doc.group[cmd]
      case BlankLine => [EmptyLine]
      case GroupLabel(l) => if l == "" then [] else [[Paint(HelpGroupHeader, l)]]
  }

  /** `this.help.commands[cmd] || ''`. */
  function HelpOf(doc: HelpDoc, cmd: string): CmdHelp
  {
    if cmd in doc.commands then doc.commands[cmd] else Desc("")
  }

  /** The multiple-examples loop: a description line only when it is truthy. */
  function ExampleListLines(doc: HelpDoc, cmd: string, entries: seq<(string, string)>, w: nat): seq<Line>
    decreases |entries|
  {
    if |entries| == 0 then []
    else
      (if entries[0].0 != "" then [ExampleDescLine(entries[0].0, w)] else [])
      + [ExampleLine(doc, cmd, entries[0].1, w)]
      + ExampleListLines(doc, cmd, entries[1..], w)
  }

  /** The command line and the example lines of one command. */
  function EntryLines(doc: HelpDoc, cmd: string, w: nat): seq<Line>
  {
    match HelpOf(doc, cmd)
    case Desc(d) => [CommandLine(cmd, d, w)]
    case OneExample(d, ex) => [CommandLine(cmd, d, w), ExampleLine(doc, cmd, ex, w)]
    case DescribedExample(d, ed, ex) =>
      [CommandLine(cmd, d, w), ExampleDescLine(ed, w), ExampleLine(doc, cmd, ex, w)]
    case Examples(d, es) => [CommandLine(cmd, d, w)] + ExampleListLines(doc, cmd, es, w)
  }

  function CommandBlock(doc: HelpDoc, cmd: string, w: nat): seq<Line>
  {
    GroupLines(doc, cmd) + EntryLines(doc, cmd, w)
  }

  /** The loop over the registry's commands. */
  function CommandsSection(doc: HelpDoc, cmds: seq<string>, w: nat): seq<Line>
    decreases |cmds|
  {
    if |cmds| == 0 then [] else CommandBlock(doc, cmds[0], w) + CommandsSection(doc, cmds[1..], w)
  }

  /** The flag names, in key order. */
  function FlagNames(pairs: seq<(string, string)>): (ks: seq<string>)
    ensures |ks| == |pairs|
    ensures forall i :: 0 <= i < |pairs| ==> ks[i] == pairs[i].0
  {
    seq(|pairs|, i requires 0 <= i < |pairs| => pairs[i].0)
  }

  function FlagLine(flag: string, desc: string, fw: nat): Line
  {
    [ Plain(Spaces(2)),
      Paint(HelpFlags, PadEnd(flag, fw, " ")),
      Plain("  " + TrimStart(Helpers.Indent(Spaces(fw + 4), desc, ""))) ]
  }

  function FlagLines(flags: seq<(string, string)>, fw: nat): (lines: seq<Line>)
    ensures |lines| == |flags|
    ensures forall i :: 0 <= i < |flags| ==> lines[i] == FlagLine(flags[i].0, flags[i].1, fw)
    decreases |flags|
  {
    if |flags| == 0 then []
    else [FlagLine(flags[0].0, flags[0].1, fw)] + FlagLines(flags[1..], fw)
  }

  /** The flag column width: the longest flag, capped at 20. */
  function FlagWidth(doc: HelpDoc): nat
  {
    ColumnWidth(FlagNames(doc.flags), FlagWidthCap)
  }

  /** The Flags section: absent without flags, otherwise a header and one
      line per flag, in key order, all aligned to one column. */
  function FlagsSection(doc: HelpDoc): (lines: seq<Line>)
    ensures |doc.flags| == 0 <==> lines == []
    ensures |doc.flags| > 0 ==> |lines| == |doc.flags| + 1 && lines[0] == HeaderLine("Flags")
    ensures |doc.flags| > 0 ==> forall i :: 0 <= i < |doc.flags| ==>
      lines[i + 1] == FlagLine(doc.flags[i].0, doc.flags[i].1, FlagWidth(doc))
  {
    if |doc.flags| == 0 then []
    else [HeaderLine("Flags")] + FlagLines(doc.flags, FlagWidth(doc))
  }

  /** The custom sections, in their key order: a header, then the text
      indented under it, for each. */
  function SectionsLines(sections: seq<(string, string)>): (lines: seq<Line>)
    ensures |lines| == 2 * |sections|
    ensures forall i :: 0 <= i < |sections| ==>
      lines[2 * i] == HeaderLine(sections[i].0) && lines[2 * i + 1] == SectionText(sections[i].1)
    decreases |sections|
  {
    if |sections| == 0 then []
    else [HeaderLine(sections[0].0), SectionText(sections[0].1)] + SectionsLines(sections[1..])
  }

  /** The command column width `cmd_help` uses for a list of commands. */
  function CmdWidth(cmds: seq<string>): nat
  {
    ColumnWidth(cmds, CmdWidthCap)
  }

  /** `cmd_help()` for the help record `doc` and the registry's commands.
      The page starts with the title, then the about text if any, then the
      Commands header and section, then the Flags section and the custom
      sections, and ends with an empty line. Its command lines are the
      registry entries, each once and in the registry's order, shown with
      `_` as `-` and padded to one column width; no other line reads as a
      command. Its example lines are the commands' examples, command by
      command in the registry's order; no other line reads as an example. */
  function Page(doc: HelpDoc, cmds: seq<string>): (page: seq<Line>)
    ensures |page| >= 3 && page[0] == TitleLine(doc) && page[|page| - 1] == EmptyLine
    ensures CommandNames(page) == PaddedNames(cmds, CmdWidth(cmds))
    ensures ExampleTexts(page) == PageExamples(doc, cmds, CmdWidth(cmds))
  {
    var w := CmdWidth(cmds);
    var top := [TitleLine(doc)] + (if doc.about != "" then [SectionText(doc.about)] else []) + [HeaderLine("Commands")];
    var mid := CommandsSection(doc, cmds, w);
    var tail := FlagsSection(doc) + SectionsLines(doc.sections) + [EmptyLine];
    TopReadsNothing(doc, Names);
    TopReadsNothing(doc, ExampleLines);
    TailReadsNothing(doc, Names);
    TailReadsNothing(doc, ExampleLines);
    SectionNames(doc, cmds, w);
    SectionExamples(doc, cmds, w);
    PartsRead(top, mid, tail, Names);
    PartsRead(top, mid, tail, ExampleLines);
    top + mid + tail
  }

  /** The order of the page: the title, the about text if any, the Commands
      header, the Commands section, then the Flags section, the custom
      sections and the closing empty line. */
  lemma PageLayout(doc: HelpDoc, cmds: seq<string>)
    ensures var page := Page(doc, cmds);
      var head := if doc.about != "" then 3 else 2;
      var mid := CommandsSection(doc, cmds, CmdWidth(cmds));
      && |page| >= head + |mid|
      && (doc.about != "" ==> page[1] == SectionText(doc.about))
      && page[head - 1] == HeaderLine("Commands")
      && page[head..head + |mid|] == mid
      && page[head + |mid|..] == FlagsSection(doc) + SectionsLines(doc.sections) + [EmptyLine]
  {
    var top := [TitleLine(doc)] + (if doc.about != "" then [SectionText(doc.about)] else []) + [HeaderLine("Commands")];
    var mid := CommandsSection(doc, cmds, CmdWidth(cmds));
    var tail := FlagsSection(doc) + SectionsLines(doc.sections) + [EmptyLine];
    assert |top| == (if doc.about != "" then 3 else 2);
    Placed(Page(doc, cmds), top, mid, tail);
  }

  // ---- reading the page back ----------------------------------------------------

  /** The (padded) command name of a command line; `None` for other lines. */
  function CommandNameOf(line: Line): Option<string>
  {
    if |line| == 3 && line[1].Styled? && line[1].style == HelpCmd
       && |line[1].body| == 1 && line[1].body[0].Plain?
    then Some(line[1].body[0].s)
    else None
  }

  /** The text of an example line; `None` for other lines. */
  function ExampleTextOf(line: Line): Option<string>
  {
    if |line| == 1 && line[0].Styled? && line[0].style == HelpCmdExample
       && |line[0].body| == 1 && line[0].body[0].Plain?
    then Some(line[0].body[0].s)
    else None
  }

  /** The two ways the page is read back. */
  datatype Reading = Names | ExampleLines

  function Pick(r: Reading, line: Line): Option<string>
  {
    match r
    case Names => CommandNameOf(line)
    case ExampleLines => ExampleTextOf(line)
  }

  /** What the reading `r` finds on one line: its one entry, or nothing. */
  function Found(r: Reading, line: Line): seq<string>
  {
    match Pick(r, line) case Some(n) => [n] case None => []
  }

  /** What the reading `r` finds on the lines, top to bottom. */
  function Collect(lines: seq<Line>, r: Reading): seq<string>
    decreases |lines|
  {
    if |lines| == 0 then []
    else Found(r, lines[0]) + Collect(lines[1..], r)
  }

  lemma {:induction false} CollectAppend(a: seq<Line>, b: seq<Line>, r: Reading)
    ensures Collect(a + b, r) == Collect(a, r) + Collect(b, r)
    decreases |a|
  {
    if |a| == 0 {
      assert a + b == b;
    } else {
      assert (a + b)[0] == a[0];
      assert (a + b)[1..] == a[1..] + b;
      CollectAppend(a[1..], b, r);
    }
  }

  lemma CollectOne(l: Line, r: Reading)
    ensures Collect([l], r) == Found(r, l)
  {
    assert [l][1..] == [];
  }

  /** The command names listed on a page, top to bottom. */
  function CommandNames(lines: seq<Line>): seq<string>
  {
    Collect(lines, Names)
  }

  /** The texts of the example lines on a page, top to bottom. */
  function ExampleTexts(lines: seq<Line>): seq<string>
  {
    Collect(lines, ExampleLines)
  }

  /** Which of the two readings each kind of line answers to. */
  lemma LineKinds(doc: HelpDoc, cmd: string, d: string, ed: string, ex: string, w: nat)
    ensures CommandNameOf(CommandLine(cmd, d, w)) == Some(PadEnd(Dispatcher.DisplayName(cmd), w, " "))
    ensures ExampleTextOf(CommandLine(cmd, d, w)) == None
    ensures ExampleLinesRead(doc, cmd, ed, ex, w)
  {
    ExampleKinds(doc, cmd, ed, ex, w);
  }

  /** An example line reads as its indented text and no command; an example
      description line reads as neither. */
  predicate ExampleLinesRead(doc: HelpDoc, cmd: string, ed: string, ex: string, w: nat)
  {
    && CommandNameOf(ExampleLine(doc, cmd, ex, w)) == None
    && ExampleTextOf(ExampleLine(doc, cmd, ex, w)) == Some(Helpers.Indent(Spaces(w + 7), ExampleText(doc, cmd, ex), ""))
    && CommandNameOf(ExampleDescLine(ed, w)) == None
    && ExampleTextOf(ExampleDescLine(ed, w)) == None
  }

  lemma ExampleKinds(doc: HelpDoc, cmd: string, ed: string, ex: string, w: nat)
    ensures ExampleLinesRead(doc, cmd, ed, ex, w)
  {
  }

  lemma GroupLinesRead(doc: HelpDoc, cmd: string)
    ensures CommandNames(GroupLines(doc, cmd)) == []
    ensures ExampleTexts(GroupLines(doc, cmd)) == []
  {
    var g := GroupLines(doc, cmd);
    if |g| == 1 {
      CollectOne(g[0], Names);
      CollectOne(g[0], ExampleLines);
      assert g == [g[0]];
    }
  }

  /** Reading a list of up to three lines, one at a time. */
  lemma ReadThree(l1: Line, l2: Line, l3: Line, r: Reading)
    ensures Collect([l1, l2], r) == Collect([l1], r) + Collect([l2], r)
    ensures Collect([l1, l2, l3], r) == Collect([l1], r) + Collect([l2], r) + Collect([l3], r)
  {
    CollectAppend([l1], [l2], r);
    assert [l1, l2] == [l1] + [l2];
    CollectAppend([l1, l2], [l3], r);
    assert [l1, l2, l3] == [l1, l2] + [l3];
  }

  lemma {:induction false} ExampleListRead(doc: HelpDoc, cmd: string, es: seq<(string, string)>, w: nat)
    ensures CommandNames(ExampleListLines(doc, cmd, es, w)) == []
    ensures ExampleTexts(ExampleListLines(doc, cmd, es, w)) == ShownExamples(doc, cmd, Seconds(es), w)
    decreases |es|
  {
    if |es| > 0 {
      var de := (if es[0].0 != "" then [ExampleDescLine(es[0].0, w)] else [])
                + [ExampleLine(doc, cmd, es[0].1, w)];
      var rest := ExampleListLines(doc, cmd, es[1..], w);
      assert ExampleListLines(doc, cmd, es, w) == de + rest;
      ExampleListRead(doc, cmd, es[1..], w);
      EntryRead(doc, cmd, es[0].0, es[0].1, w);
      CollectAppend(de, rest, Names);
      CollectAppend(de, rest, ExampleLines);
      ShownExamplesStep(doc, cmd, es, w);
    }
  }

  /** One example, with its optional description line, reads back as its
      shown text and no command. */
  lemma EntryRead(doc: HelpDoc, cmd: string, ed: string, ex: string, w: nat)
    ensures var de := (if ed != "" then [ExampleDescLine(ed, w)] else []) + [ExampleLine(doc, cmd, ex, w)];
      && CommandNames(de) == []
      && ExampleTexts(de) == [Helpers.Indent(Spaces(w + 7), ExampleText(doc, cmd, ex), "")]
  {
    var d := if ed != "" then [ExampleDescLine(ed, w)] else [];
    var e := [ExampleLine(doc, cmd, ex, w)];
    ExampleKinds(doc, cmd, ed, ex, w);
    CollectAppend(d, e, Names);
    CollectAppend(d, e, ExampleLines);
    CollectOne(e[0], Names);
    CollectOne(e[0], ExampleLines);
    if ed != "" {
      CollectOne(d[0], Names);
      CollectOne(d[0], ExampleLines);
    }
  }

  lemma ShownExamplesStep(doc: HelpDoc, cmd: string, es: seq<(string, string)>, w: nat)
    requires |es| > 0
    ensures ShownExamples(doc, cmd, Seconds(es), w)
         == [Helpers.Indent(Spaces(w + 7), ExampleText(doc, cmd, es[0].1), "")]
            + ShownExamples(doc, cmd, Seconds(es[1..]), w)
  {
    assert Seconds(es)[1..] == Seconds(es[1..]);
  }

  /** A command line alone. */
  lemma DescRead(doc: HelpDoc, cmd: string, d: string, w: nat)
    ensures CommandNames([CommandLine(cmd, d, w)]) == [PadEnd(Dispatcher.DisplayName(cmd), w, " ")]
    ensures ExampleTexts([CommandLine(cmd, d, w)]) == []
  {
    LineKinds(doc, cmd, d, "", "", w);
    CollectOne(CommandLine(cmd, d, w), Names);
    CollectOne(CommandLine(cmd, d, w), ExampleLines);
  }

  /** A command line followed by its one example. */
  lemma OneExampleRead(doc: HelpDoc, cmd: string, d: string, ex: string, w: nat)
    ensures CommandNames([CommandLine(cmd, d, w), ExampleLine(doc, cmd, ex, w)])
         == [PadEnd(Dispatcher.DisplayName(cmd), w, " ")]
    ensures ExampleTexts([CommandLine(cmd, d, w), ExampleLine(doc, cmd, ex, w)])
         == ShownExamples(doc, cmd, [ex], w)
  {
    var c := CommandLine(cmd, d, w);
    var e := ExampleLine(doc, cmd, ex, w);
    LineKinds(doc, cmd, d, "", ex, w);
    ReadThree(c, e, EmptyLine, Names);
    ReadThree(c, e, EmptyLine, ExampleLines);
    CollectOne(c, Names);
    CollectOne(c, ExampleLines);
    CollectOne(e, Names);
    CollectOne(e, ExampleLines);
  }

  /** A command line, an example description, then the example. */
  lemma DescribedExampleRead(doc: HelpDoc, cmd: string, d: string, ed: string, ex: string, w: nat)
    ensures CommandNames([CommandLine(cmd, d, w), ExampleDescLine(ed, w), ExampleLine(doc, cmd, ex, w)])
         == [PadEnd(Dispatcher.DisplayName(cmd), w, " ")]
    ensures ExampleTexts([CommandLine(cmd, d, w), ExampleDescLine(ed, w), ExampleLine(doc, cmd, ex, w)])
         == ShownExamples(doc, cmd, [ex], w)
  {
    var c := CommandLine(cmd, d, w);
    var l := ExampleDescLine(ed, w);
    var e := ExampleLine(doc, cmd, ex, w);
    LineKinds(doc, cmd, d, ed, ex, w);
    ReadThree(c, l, e, Names);
    ReadThree(c, l, e, ExampleLines);
    CollectOne(c, Names);
    CollectOne(c, ExampleLines);
    CollectOne(l, Names);
    CollectOne(l, ExampleLines);
    CollectOne(e, Names);
    CollectOne(e, ExampleLines);
  }

  /** A command line followed by a list of examples. */
  lemma ExamplesRead(doc: HelpDoc, cmd: string, d: string, es: seq<(string, string)>, w: nat)
    ensures CommandNames([CommandLine(cmd, d, w)] + ExampleListLines(doc, cmd, es, w))
         == [PadEnd(Dispatcher.DisplayName(cmd), w, " ")]
    ensures ExampleTexts([CommandLine(cmd, d, w)] + ExampleListLines(doc, cmd, es, w))
         == ShownExamples(doc, cmd, Seconds(es), w)
  {
    DescRead(doc, cmd, d, w);
    CollectAppend([CommandLine(cmd, d, w)], ExampleListLines(doc, cmd, es, w), Names);
    CollectAppend([CommandLine(cmd, d, w)], ExampleListLines(doc, cmd, es, w), ExampleLines);
    ExampleListRead(doc, cmd, es, w);
  }

  /** One command block lists exactly its own command, and shows its
      examples in order. */
  lemma BlockRead(doc: HelpDoc, cmd: string, w: nat)
    ensures CommandNames(CommandBlock(doc, cmd, w)) == [PadEnd(Dispatcher.DisplayName(cmd), w, " ")]
    ensures ExampleTexts(CommandBlock(doc, cmd, w)) == ShownExamples(doc, cmd, ExamplesOf(HelpOf(doc, cmd)), w)
  {
    var g := GroupLines(doc, cmd);
    var e := EntryLines(doc, cmd, w);
    CollectAppend(g, e, Names);
    CollectAppend(g, e, ExampleLines);
    GroupLinesRead(doc, cmd);
    EntryLinesRead(doc, cmd, w);
  }

  /** The entry of one command lists exactly that command, and shows its
      examples in order, whatever the help shape. */
  lemma EntryLinesRead(doc: HelpDoc, cmd: string, w: nat)
    ensures CommandNames(EntryLines(doc, cmd, w)) == [PadEnd(Dispatcher.DisplayName(cmd), w, " ")]
    ensures ExampleTexts(EntryLines(doc, cmd, w)) == ShownExamples(doc, cmd, ExamplesOf(HelpOf(doc, cmd)), w)
  {
    match HelpOf(doc, cmd)
    case Desc(d) =>
      assert EntryLines(doc, cmd, w) == [CommandLine(cmd, d, w)];
      DescRead(doc, cmd, d, w);
    case OneExample(d, ex) =>
      assert EntryLines(doc, cmd, w) == [CommandLine(cmd, d, w), ExampleLine(doc, cmd, ex, w)];
      OneExampleRead(doc, cmd, d, ex, w);
    case DescribedExample(d, ed, ex) =>
      assert EntryLines(doc, cmd, w) == [CommandLine(cmd, d, w), ExampleDescLine(ed, w), ExampleLine(doc, cmd, ex, w)];
      DescribedExampleRead(doc, cmd, d, ed, ex, w);
    case Examples(d, es) =>
      assert EntryLines(doc, cmd, w) == [CommandLine(cmd, d, w)] + ExampleListLines(doc, cmd, es, w);
      ExamplesRead(doc, cmd, d, es, w);
  }

  /** The names the Commands section shows: `_` as `-`, padded to `w`. */
  function PaddedNames(cmds: seq<string>, w: nat): (r: seq<string>)
    ensures |r| == |cmds|
    ensures forall i :: 0 <= i < |cmds| ==> r[i] == PadEnd(Dispatcher.DisplayName(cmds[i]), w, " ")
    decreases |cmds|
  {
    if |cmds| == 0 then []
    else [PadEnd(Dispatcher.DisplayName(cmds[0]), w, " ")] + PaddedNames(cmds[1..], w)
  }

  lemma {:induction false} SectionNames(doc: HelpDoc, cmds: seq<string>, w: nat)
    ensures CommandNames(CommandsSection(doc, cmds, w)) == PaddedNames(cmds, w)
    decreases |cmds|
  {
    if |cmds| > 0 {
      CollectAppend(CommandBlock(doc, cmds[0], w), CommandsSection(doc, cmds[1..], w), Names);
      BlockRead(doc, cmds[0], w);
      SectionNames(doc, cmds[1..], w);
    }
  }

  lemma {:induction false} SectionsReadNothing(sections: seq<(string, string)>, r: Reading)
    ensures Collect(SectionsLines(sections), r) == []
    decreases |sections|
  {
    if |sections| > 0 {
      var head := [HeaderLine(sections[0].0), SectionText(sections[0].1)];
      assert SectionsLines(sections) == head + SectionsLines(sections[1..]);
      CollectAppend(head, SectionsLines(sections[1..]), r);
      ReadThree(head[0], head[1], EmptyLine, r);
      CollectOne(head[0], r);
      CollectOne(head[1], r);
      SectionsReadNothing(sections[1..], r);
    }
  }

  /** Each line of a section text stands two spaces in. */
  lemma SectionTextLines(text: string)
    ensures var line := SectionText(text);
      && |line| == 1 && line[0].Plain?
      && Split(line[0].s, '\n') == Helpers.IndentLines(Spaces(2), text, "")
  {
    assert '\n' !in Spaces(2) + "";
  }

  /** The examples the Commands section shows: those of each command, in
      the order of the commands. */
  function PageExamples(doc: HelpDoc, cmds: seq<string>, w: nat): seq<string>
    decreases |cmds|
  {
    if |cmds| == 0 then []
    else ShownExamples(doc, cmds[0], ExamplesOf(HelpOf(doc, cmds[0])), w) + PageExamples(doc, cmds[1..], w)
  }

  lemma {:induction false} SectionExamples(doc: HelpDoc, cmds: seq<string>, w: nat)
    ensures ExampleTexts(CommandsSection(doc, cmds, w)) == PageExamples(doc, cmds, w)
    decreases |cmds|
  {
    if |cmds| > 0 {
      CollectAppend(CommandBlock(doc, cmds[0], w), CommandsSection(doc, cmds[1..], w), ExampleLines);
      BlockRead(doc, cmds[0], w);
      SectionExamples(doc, cmds[1..], w);
    }
  }

  /** The Commands section is the blocks of the commands before `cmds[i]`,
      then the block of `cmds[i]` (its group marker lines, then its command
      line and examples), then the blocks of the commands after it. */
  lemma BlockInSection(doc: HelpDoc, cmds: seq<string>, w: nat, i: nat)
    requires i < |cmds|
    ensures CommandsSection(doc, cmds, w)
         == CommandsSection(doc, cmds[..i], w) + CommandBlock(doc, cmds[i], w) + CommandsSection(doc, cmds[i + 1..], w)
  {
    assert cmds == cmds[..i] + ([cmds[i]] + cmds[i + 1..]);
    SectionAppend(doc, cmds[..i], [cmds[i]] + cmds[i + 1..], w);
    SectionAppend(doc, [cmds[i]], cmds[i + 1..], w);
    SectionOne(doc, cmds[i], w);
  }

  lemma {:induction false} SectionAppend(doc: HelpDoc, a: seq<string>, b: seq<string>, w: nat)
    ensures CommandsSection(doc, a + b, w) == CommandsSection(doc, a, w) + CommandsSection(doc, b, w)
    decreases |a|
  {
    if |a| == 0 {
      assert a + b == b;
    } else {
      assert (a + b)[0] == a[0] && (a + b)[1..] == a[1..] + b;
      SectionAppend(doc, a[1..], b, w);
      assert CommandsSection(doc, a + b, w) == CommandBlock(doc, a[0], w) + CommandsSection(doc, a[1..] + b, w);
    }
  }

  lemma SectionOne(doc: HelpDoc, cmd: string, w: nat)
    ensures CommandsSection(doc, [cmd], w) == CommandBlock(doc, cmd, w)
  {
    assert [cmd][1..] == [];
  }

  // ---- the description column

  /** What `indent(spacer, desc).trimStart()` shows in a description column,
      line by line. If the first line of `desc` holds more than whitespace,
      `col` splits into that line with its leading whitespace trimmed,
      followed by each later line of `desc` behind `spacer`. If it is blank,
      it and its newline vanish, leaving the trimmed indent of the later
      lines. */
  predicate DescriptionColumn(col: string, desc: string, spacer: string)
  {
    var parts := Split(desc, '\n');
    && (!Blank(parts[0]) ==> Split(col, '\n') == [TrimStart(parts[0])] + Helpers.IndentLines(spacer, desc, "")[1..])
    && (Blank(parts[0]) ==> col == TrimStart(Helpers.Indent(spacer, Join(parts[1..], '\n'), "")))
  }

  /** The trimmed indent of a description, with a spacer of `n` spaces, reads
      as that description's column; an empty description leaves it empty. */
  lemma DescribedColumn(desc: string, n: nat)
    ensures DescriptionColumn(TrimStart(Helpers.Indent(Spaces(n), desc, "")), desc, Spaces(n))
    ensures desc == "" ==> TrimStart(Helpers.Indent(Spaces(n), desc, "")) == ""
  {
    assert Blank(Spaces(n));
    Helpers.TrimmedIndent(Spaces(n), desc);
    if desc == "" {
      Helpers.EmptyIndent(Spaces(n));
      TrimStartBlank(Spaces(n), "");
      assert Spaces(n) + "" == Spaces(n);
    }
  }

  /** `printCm`'s description column: two spaces, then the description as
      `DescriptionColumn` reads it, its continuation lines under the column
      `w + 5`; nothing after the two spaces for an empty description. */
  lemma CommandLineDescription(cmd: string, desc: string, w: nat)
    ensures var text := CommandLine(cmd, desc, w)[2];
      && text.Plain? && |text.s| >= 2 && text.s[..2] == "  "
      && DescriptionColumn(text.s[2..], desc, Spaces(w + 5))
      && (desc == "" ==> text == Plain("  "))
  {
    DescribedColumn(desc, w + 5);
    var col := if desc != "" then TrimStart(Helpers.Indent(Spaces(w + 5), desc, "")) else "";
    AfterTwoSpaces(CommandLine(cmd, desc, w)[2], col, desc, Spaces(w + 5));
  }

  /** A flag line's description column: two spaces, then the description as
      `DescriptionColumn` reads it, its continuation lines under the column
      `fw + 4`; nothing after the two spaces for an empty description. */
  lemma FlagLineDescription(flag: string, desc: string, fw: nat)
    ensures var text := FlagLine(flag, desc, fw)[2];
      && text.Plain? && |text.s| >= 2 && text.s[..2] == "  "
      && DescriptionColumn(text.s[2..], desc, Spaces(fw + 4))
      && (desc == "" ==> text == Plain("  "))
  {
    DescribedColumn(desc, fw + 4);
    var col := TrimStart(Helpers.Indent(Spaces(fw + 4), desc, ""));
    AfterTwoSpaces(FlagLine(flag, desc, fw)[2], col, desc, Spaces(fw + 4));
  }

  /** A column behind two spaces, seen from the text holding it. */
  lemma AfterTwoSpaces(text: Text, col: string, desc: string, spacer: string)
    requires text == Plain("  " + col)
    requires DescriptionColumn(col, desc, spacer) && (desc == "" ==> col == "")
    ensures text.Plain? && |text.s| >= 2 && text.s[..2] == "  "
    ensures DescriptionColumn(text.s[2..], desc, spacer)
    ensures desc == "" ==> text == Plain("  ")
  {
    assert ("  " + col)[2..] == col;
  }

  lemma FlagLineKind(flag: string, desc: string, fw: nat, r: Reading)
    ensures Found(r, FlagLine(flag, desc, fw)) == []
  {
  }

  lemma {:induction false} FlagLinesReadNothing(flags: seq<(string, string)>, fw: nat, r: Reading)
    ensures Collect(FlagLines(flags, fw), r) == []
    decreases |flags|
  {
    if |flags| > 0 {
      var first := FlagLine(flags[0].0, flags[0].1, fw);
      CollectAppend([first], FlagLines(flags[1..], fw), r);
      FlagLineKind(flags[0].0, flags[0].1, fw, r);
      CollectOne(first, r);
      FlagLinesReadNothing(flags[1..], fw, r);
    }
  }

  /** A page read part by part. */
  lemma PartsRead(top: seq<Line>, mid: seq<Line>, tail: seq<Line>, r: Reading)
    ensures Collect(top + mid + tail, r) == Collect(top, r) + Collect(mid, r) + Collect(tail, r)
  {
    CollectAppend(top + mid, tail, r);
    CollectAppend(top, mid, r);
  }

  /** Where the three parts of a page sit. */
  lemma Placed(page: seq<Line>, top: seq<Line>, mid: seq<Line>, tail: seq<Line>)
    requires page == top + mid + tail && |top| >= 2
    ensures |page| >= |top| + |mid|
    ensures page[1] == top[1] && page[|top| - 1] == top[|top| - 1]
    ensures page[|top|..|top| + |mid|] == mid && page[|top| + |mid|..] == tail
  {
  }

  /** A header line in front of some lines adds nothing to either reading. */
  lemma HeaderReadsNothing(title: string, lines: seq<Line>, r: Reading)
    ensures Collect([HeaderLine(title)] + lines, r) == Collect(lines, r)
  {
    CollectAppend([HeaderLine(title)], lines, r);
    CollectOne(HeaderLine(title), r);
  }

  /** The lines above the Commands section name no command and show no
      example. */
  lemma TopReadsNothing(doc: HelpDoc, r: Reading)
    ensures Collect([TitleLine(doc)] + (if doc.about != "" then [SectionText(doc.about)] else [])
                    + [HeaderLine("Commands")], r) == []
  {
    CollectOne(TitleLine(doc), r);
    CollectOne(HeaderLine("Commands"), r);
    CollectOne(SectionText(doc.about), r);
    ReadThree(TitleLine(doc), SectionText(doc.about), HeaderLine("Commands"), r);
    ReadThree(TitleLine(doc), HeaderLine("Commands"), EmptyLine, r);
    if doc.about != "" {
      assert [TitleLine(doc)] + [SectionText(doc.about)] + [HeaderLine("Commands")]
          == [TitleLine(doc), SectionText(doc.about), HeaderLine("Commands")];
    } else {
      assert [TitleLine(doc)] + [] + [HeaderLine("Commands")] == [TitleLine(doc), HeaderLine("Commands")];
    }
  }

  lemma FlagsSectionReadsNothing(doc: HelpDoc, r: Reading)
    ensures Collect(FlagsSection(doc), r) == []
  {
    if |doc.flags| > 0 {
      var fw := FlagWidth(doc);
      FlagLinesReadNothing(doc.flags, fw, r);
      HeaderReadsNothing("Flags", FlagLines(doc.flags, fw), r);
    }
  }

  /** The lines below the Commands section name no command and show no
      example. */
  lemma TailReadsNothing(doc: HelpDoc, r: Reading)
    ensures Collect(FlagsSection(doc) + SectionsLines(doc.sections) + [EmptyLine], r) == []
  {
    FlagsSectionReadsNothing(doc, r);
    SectionsReadNothing(doc.sections, r);
    CollectAppend(FlagsSection(doc) + SectionsLines(doc.sections), [EmptyLine], r);
    CollectAppend(FlagsSection(doc), SectionsLines(doc.sections), r);
    CollectOne(EmptyLine, r);
  }

  /** The command column: at most 9 wide, and every listed name fits in it
      unless the cap was hit; longer names are padded to nothing and kept
      whole, so they push their description to the right. */
  lemma CommandColumn(cmds: seq<string>, i: nat)
    requires i < |cmds|
    ensures CmdWidth(cmds) <= 9
    ensures |Dispatcher.DisplayName(cmds[i])| <= CmdWidth(cmds) ==>
              |PadEnd(Dispatcher.DisplayName(cmds[i]), CmdWidth(cmds), " ")| == CmdWidth(cmds)
    ensures |cmds[i]| > 9 ==> PadEnd(Dispatcher.DisplayName(cmds[i]), CmdWidth(cmds), " ") == Dispatcher.DisplayName(cmds[i])
  {
    PadEndFacts(Dispatcher.DisplayName(cmds[i]), CmdWidth(cmds), " ");
  }

  // ---- group markers and examples ---------------------------------------------

  /** A group marker `true` puts a blank line before the command, a group
      name puts its header there, and no (or a falsy) marker puts nothing. */
  lemma GroupMarkerLines(doc: HelpDoc, cmd: string, w: nat)
    ensures var b := CommandBlock(doc, cmd, w);
      && (cmd in doc.group && doc.group[cmd] == BlankLine ==> b[0] == EmptyLine && CommandNameOf(b[1]).Some?)
      && (cmd in doc.group && doc.group[cmd].GroupLabel? && doc.group[cmd].name != "" ==>
            b[0] == [Paint(HelpGroupHeader, doc.group[cmd].name)] && CommandNameOf(b[1]).Some?)
      && (cmd !in doc.group || doc.group[cmd] == GroupLabel("") ==> CommandNameOf(b[0]).Some?)
  {
    var g := GroupLines(doc, cmd);
    var e := EntryLines(doc, cmd, w);
    EntryStartsWithCommand(doc, cmd, w);
    LineKinds(doc, cmd, HelpOf(doc, cmd).desc, "", "", w);
    assert CommandBlock(doc, cmd, w) == g + e;
    assert |g| <= 1;
    assert (g + e)[|g|] == e[0];
  }

  /** Every entry starts with its command line. */
  lemma EntryStartsWithCommand(doc: HelpDoc, cmd: string, w: nat)
    ensures |EntryLines(doc, cmd, w)| >= 1
    ensures EntryLines(doc, cmd, w)[0] == CommandLine(cmd, HelpOf(doc, cmd).desc, w)
  {
  }

  /** The examples of a list of `[desc, example]` entries. */
  function Seconds(es: seq<(string, string)>): (r: seq<string>)
    ensures |r| == |es|
    ensures forall i :: 0 <= i < |es| ==> r[i] == es[i].1
    decreases |es|
  {
    if |es| == 0 then [] else [es[0].1] + Seconds(es[1..])
  }

  /** The examples of a command's help, in order. */
  function ExamplesOf(h: CmdHelp): seq<string>
  {
    match h
    case Desc(_) => []
    case OneExample(_, ex) => [ex]
    case DescribedExample(_, _, ex) => [ex]
    case Examples(_, es) => Seconds(es)
  }

  /** How each example is shown under the command. */
  function ShownExamples(doc: HelpDoc, cmd: string, examples: seq<string>, w: nat): (r: seq<string>)
    ensures |r| == |examples|
    ensures forall i :: 0 <= i < |examples| ==>
      r[i] == Helpers.Indent(Spaces(w + 7), ExampleText(doc, cmd, examples[i]), "")
    decreases |examples|
  {
    if |examples| == 0 then []
    else
      [Helpers.Indent(Spaces(w + 7), ExampleText(doc, cmd, examples[0]), "")]
      + ShownExamples(doc, cmd, examples[1..], w)
  }

  /** Every example of a command is shown once, in order, right under it;
      with `cmdPrepend` each reads `<app> <cmd> <example>`, with "app" when no
      app name is set. */
  lemma ExamplesShown(doc: HelpDoc, cmd: string, w: nat)
    ensures ExampleTexts(CommandBlock(doc, cmd, w)) == ShownExamples(doc, cmd, ExamplesOf(HelpOf(doc, cmd)), w)
    ensures doc.cmdPrepend ==> forall ex :: ExampleText(doc, cmd, ex) == AppName(doc) + " " + cmd + " " + ex
    ensures AppName(doc) == if doc.app == "" then "app" else doc.app
  {
    BlockRead(doc, cmd, w);
  }
}

=== FILE: jsstrings.dfy ===
/** The JavaScript string primitives the library relies on, written out over
    `seq<char>`: `split`/`join` on a one-character separator, `indexOf`,
    `replace(/x/g, y)` for a single character, `padStart`/`padEnd`,
    `trimStart`, `startsWith` and `String(n)` for integers. */
module JsStrings {

  /** `s.split(sep)` for a one-character separator: the pieces between
      separators, always at least one (`"".split(sep)` is `[""]`). */
  function Split(s: string, sep: char): (parts: seq<string>)
    ensures |parts| >= 1
    ensures forall i :: 0 <= i < |parts| ==> sep !in parts[i]
    decreases |s|
  {
    if |s| == 0 then [""]
    else
      var rest := Split(s[1..], sep);
      if s[0] == sep then [""] + rest
      else [[s[0]] + rest[0]] + rest[1..]
  }

  /** `parts.join(sep)` for a one-character separator. */
  function Join(parts: seq<string>, sep: char): string
    decreases |parts|
  {
    if |parts| == 0 then ""
    else if |parts| == 1 then parts[0]
    else parts[0] + [sep] + Join(parts[1..], sep)
  }

  /** Joining the pieces of a split gives the original string back. */
  lemma {:induction false} JoinSplit(s: string, sep: char)
    ensures Join(Split(s, sep), sep) == s
    decreases |s|
  {
    if |s| > 0 {
      var rest := Split(s[1..], sep);
      JoinSplit(s[1..], sep);
      if s[0] == sep {
        assert Split(s, sep) == [""] + rest;
        assert ([""] + rest)[1..] == rest;
      } else {
        var parts := [[s[0]] + rest[0]] + rest[1..];
        assert Split(s, sep) == parts;
        if |rest| == 1 {
          assert Join(rest, sep) == rest[0];
        } else {
          assert parts[1..] == rest[1..];
          assert Join(rest, sep) == rest[0] + [sep] + Join(rest[1..], sep);
        }
      }
    }
  }

  /** Splitting a join of separator-free pieces gives the pieces back. */
  lemma {:induction false} SplitJoin(parts: seq<string>, sep: char)
    requires |parts| >= 1
    requires forall i :: 0 <= i < |parts| ==> sep !in parts[i]
    ensures Split(Join(parts, sep), sep) == parts
    decreases |parts|
  {
    if |parts| == 1 {
      SplitNoSeparator(parts[0], sep);
    } else {
      SplitJoin(parts[1..], sep);
      SplitConcat(parts[0], Join(parts[1..], sep), sep);
      assert Join(parts, sep) == parts[0] + [sep] + Join(parts[1..], sep);
      assert [parts[0]] + parts[1..] == parts;
    }
  }

  /** A separator-free string splits into itself. */
  lemma {:induction false} SplitNoSeparator(s: string, sep: char)
    requires sep !in s
    ensures Split(s, sep) == [s]
    decreases |s|
  {
    if |s| > 0 {
      assert sep !in s[1..] by {
        forall k | 0 <= k < |s[1..]| ensures s[1..][k] != sep {
          assert s[1..][k] == s[k + 1];
        }
      }
      SplitNoSeparator(s[1..], sep);
      assert [s[0]] + s[1..] == s;
    }
  }

  /** Splitting `a + sep + b` where `a` has no separator. */
  lemma {:induction false} SplitConcat(a: string, b: string, sep: char)
    requires sep !in a
    ensures Split(a + [sep] + b, sep) == [a] + Split(b, sep)
    decreases |a|
  {
    if |a| == 0 {
      assert a + [sep] + b == [sep] + b;
      assert ([sep] + b)[1..] == b;
    } else {
      var s := a + [sep] + b;
      assert s[0] == a[0];
      assert s[1..] == a[1..] + [sep] + b;
      assert sep !in a[1..] by {
        forall k | 0 <= k < |a[1..]| ensures a[1..][k] != sep {
          assert a[1..][k] == a[k + 1];
        }
      }
      SplitConcat(a[1..], b, sep);
      assert [a[0]] + a[1..] == a;
    }
  }

  /** `s.indexOf(x)` (strings and arrays alike): the first position of `x`,
      or -1 when absent. */
  function IndexOf<T(==)>(s: seq<T>, x: T): (r: int)
    ensures r == -1 <==> x !in s
    ensures r != -1 ==> 0 <= r < |s| && s[r] == x && x !in s[..r]
    decreases |s|
  {
    if |s| == 0 then -1
    else if s[0] == x then 0
    else
      var k := IndexOf(s[1..], x);
      assert x !in s[1..] ==> x !in s by {
        if x !in s[1..] {
          forall j | 0 <= j < |s| ensures s[j] != x {
            if j > 0 { assert s[j] == s[1..][j - 1]; }
          }
        }
      }
      if k == -1 then -1
      else
        assert s[..k + 1] == [s[0]] + s[1..][..k];
        k + 1
  }

  /** `s.replace(/from/g, to)` for single characters. */
  function ReplaceAll(s: string, from: char, to: char): string
  {
    seq(|s|, i requires 0 <= i < |s| => if s[i] == from then to else s[i])
  }

  /** After replacing every `from` by `to`, the length is kept, each `from`
      has become `to`, no `from` is left and every other character is where
      it was. */
  lemma ReplaceAllFacts(s: string, from: char, to: char)
    requires from != to
    ensures |ReplaceAll(s, from, to)| == |s|
    ensures forall i :: 0 <= i < |s| && s[i] == from ==> ReplaceAll(s, from, to)[i] == to
    ensures from !in ReplaceAll(s, from, to)
    ensures forall i :: 0 <= i < |s| && s[i] != from ==> ReplaceAll(s, from, to)[i] == s[i]
  {
  }

  /** `n` copies of `fill`, cut to length `n` (the filler `padStart` uses). */
  function Repeat(fill: string, n: nat): (r: string)
    requires |fill| > 0
    ensures |r| == n
    ensures forall i :: 0 <= i < n ==> r[i] == fill[i % |fill|]
  {
    seq(n, i requires 0 <= i < n => fill[i % |fill|])
  }

  /** `s.padStart(width, fill)`: unchanged when `width <= |s|` or `fill` is
      empty, otherwise prefixed with `fill` repeated and cut to size. */
  function PadStart(s: string, width: int, fill: string): string
  {
    if width <= |s| || |fill| == 0 then s
    else Repeat(fill, width - |s|) + s
  }

  /** `s.padEnd(width, fill)`: the mirror image of `PadStart`. */
  function PadEnd(s: string, width: int, fill: string): string
  {
    if width <= |s| || |fill| == 0 then s
    else s + Repeat(fill, width - |s|)
  }

  function Max(a: int, b: int): int { if a < b then b else a }

  /** `padStart` never truncates: the result has length max(|s|, width) and
      keeps `s` as its suffix; with an empty filler it is `s` itself. */
  lemma PadStartFacts(s: string, width: int, fill: string)
    ensures |fill| > 0 ==> |PadStart(s, width, fill)| == Max(|s|, width)
    ensures |fill| == 0 ==> PadStart(s, width, fill) == s
    ensures var r := PadStart(s, width, fill); r[|r| - |s|..] == s
  {
  }

  /** `padEnd` never truncates: the result has length max(|s|, width) and
      keeps `s` as its prefix. */
  lemma PadEndFacts(s: string, width: int, fill: string)
    ensures |fill| > 0 ==> |PadEnd(s, width, fill)| == Max(|s|, width)
    ensures |fill| == 0 ==> PadEnd(s, width, fill) == s
    ensures |s| <= |PadEnd(s, width, fill)| && PadEnd(s, width, fill)[..|s|] == s
  {
  }

  /** `''.padStart(n, ' ')`: a run of `n` spaces, empty for `n <= 0`. */
  function Spaces(n: int): (r: string)
    ensures |r| == Max(n, 0)
    ensures forall i :: 0 <= i < |r| ==> r[i] == ' '
  {
    PadStart("", n, " ")
  }

  /** The characters `trimStart` removes: ECMAScript WhiteSpace and
      LineTerminator code points. */
  predicate IsJsWhitespace(c: char)
  {
    c == '\t' || c == '\n' || c == '\U{B}' || c == '\U{C}' || c == '\r' || c == ' '
    || c == '\U{A0}' || c == '\U{1680}' || ('\U{2000}' <= c <= '\U{200A}')
    || c == '\U{2028}' || c == '\U{2029}' || c == '\U{202F}' || c == '\U{205F}'
    || c == '\U{3000}' || c == '\U{FEFF}'
  }

  /** `s.trimStart()`: drops the leading whitespace, whitespace only. */
  function TrimStart(s: string): (r: string)
    ensures |r| <= |s| && r == s[|s| - |r|..]
    ensures |r| > 0 ==> !IsJsWhitespace(r[0])
    ensures forall i :: 0 <= i < |s| - |r| ==> IsJsWhitespace(s[i])
    decreases |s|
  {
    if |s| > 0 && IsJsWhitespace(s[0]) then
      var r := TrimStart(s[1..]);
      assert forall i :: 1 <= i < |s| - |r| ==> s[i] == s[1..][i - 1];
      r
    else s
  }

  /** Whitespace only (the empty string included): what `trimStart` empties. */
  predicate Blank(s: string)
  {
    forall i :: 0 <= i < |s| ==> IsJsWhitespace(s[i])
  }

  /** A blank front is trimmed away entirely, whatever follows it. */
  lemma {:induction false} TrimStartBlank(w: string, s: string)
    requires Blank(w)
    ensures TrimStart(w + s) == TrimStart(s)
    decreases |w|
  {
    if |w| == 0 {
      assert w + s == s;
    } else {
      assert (w + s)[0] == w[0];
      assert (w + s)[1..] == w[1..] + s;
      assert Blank(w[1..]) by {
        forall i | 0 <= i < |w[1..]| ensures IsJsWhitespace(w[1..][i]) {
          assert w[1..][i] == w[i + 1];
        }
      }
      TrimStartBlank(w[1..], s);
    }
  }

  /** Trimming stops inside a front that is not blank, so what follows it is
      kept untouched. */
  lemma {:induction false} TrimStartKeeps(a: string, b: string)
    requires !Blank(a)
    ensures TrimStart(a + b) == TrimStart(a) + b
    decreases |a|
  {
    assert (a + b)[0] == a[0];
    if IsJsWhitespace(a[0]) {
      assert !Blank(a[1..]) by {
        var i :| 0 <= i < |a| && !IsJsWhitespace(a[i]);
        assert a[1..][i - 1] == a[i];
      }
      assert (a + b)[1..] == a[1..] + b;
      TrimStartKeeps(a[1..], b);
    }
  }

  /** `s.startsWith(p)`. */
  predicate StartsWith(s: string, p: string)
  {
    |p| <= |s| && s[..|p|] == p
  }

  /** The decimal digits of a natural number, most significant first. */
  function NatDigits(n: nat): (r: string)
    ensures |r| >= 1
    ensures forall i :: 0 <= i < |r| ==> '0' <= r[i] <= '9'
    decreases n
  {
    var d := ['0' + (n % 10) as char];
    if n < 10 then d else NatDigits(n / 10) + d
  }

  /** `String(n)` for an integer: a minus sign, then the digits. */
  function DecimalString(n: int): string
  {
    if n < 0 then "-" + NatDigits(-n) else NatDigits(n)
  }

  function Pow10(k: nat): (r: nat)
    ensures r >= 1
  {
    if k == 0 then 1 else 10 * Pow10(k - 1)
  }

  /** The digit count of `n` is the `k` with 10^(k-1) <= n < 10^k for a
      positive `n`, and 1 for every `n` below 10, zero included. */
  lemma {:induction false} NatDigitsLength(n: nat)
    ensures n < Pow10(|NatDigits(n)|)
    ensures n >= 1 ==> Pow10(|NatDigits(n)| - 1) <= n
    ensures n < 10 <==> |NatDigits(n)| == 1
    decreases n
  {
    if n >= 10 {
      NatDigitsLength(n / 10);
    }
  }

  /** The value the digits spell, read most significant first. */
  function DigitsValue(s: string): int
    decreases |s|
  {
    if |s| == 0 then 0
    else 10 * DigitsValue(s[..|s| - 1]) + (s[|s| - 1] as int - '0' as int)
  }

  /** Reading the digits back yields the number. */
  lemma {:induction false} NatDigitsValue(n: nat)
    ensures DigitsValue(NatDigits(n)) == n
    decreases n
  {
    var d := ['0' + (n % 10) as char];
    if n >= 10 {
      NatDigitsValue(n / 10);
      var s := NatDigits(n / 10) + d;
      assert s[..|s| - 1] == NatDigits(n / 10);
    }
  }
}

=== FILE: options.dfy ===
/** Optional values and outcomes shared by the model.
    `None` stands for JavaScript's `undefined` wherever the source returns
    "nothing" (a validator that asks for a retry, a missing argument). */
module Options {

  datatype Option<+T> = None | Some(value: T) {
    function GetOr(default: T): T {
      match this
      case Some(v) => v
      case None => default
    }
  }

  /** A value, or the message of the `Error` the source throws. */
  datatype Result<+T> = Ok(value: T) | Threw(message: string)
}

=== FILE: progressbar.dfy ===
/** The progress bar `progress()` returns (index.js:373-480).

    The bar is a record of its counters and layout; `Date.now()` is the
    parameter `now` and `process.stdout.columns` the parameter `columns`.
    A tick either skips (throttled) or yields the frame it paints. The
    frame is modelled up to the step counter: throughput and ETA, which are
    floating-point readings of the wall clock, are not. The ratio
    `currentStep / steps` is taken exactly, and `parseInt` of it as a
    truncation toward zero; a zero total makes every derived length `NaN`,
    written `None`. */
module ProgressBar {
  import opened JsStrings
  import opened Options
  import opened Terminal

  const DefaultRateMs: int := 200
  const DefaultColumns: int := 60
  /** The characters of a frame that are not bar or step counters. */
  const Chrome: int := 27

  datatype Bar = Bar(
    steps: int,
    currentStep: int,
    updateRateMs: int,
    lastRepaintTime: int,
    numWidth: nat,
    barWidth: int,
    terminalWidth: int)

  /** The layout `setup()` derives from `steps` and the terminal width. */
  predicate LaidOut(b: Bar)
  {
    b.numWidth == |DecimalString(b.steps)|
    && b.barWidth == b.terminalWidth - Chrome - 2 * b.numWidth
  }

  /** `setup()`: recomputes the layout and touches nothing else. */
  function Setup(b: Bar): (r: Bar)
    ensures LaidOut(r)
    ensures r.(numWidth := b.numWidth, barWidth := b.barWidth) == b
  {
    var nw := |DecimalString(b.steps)|;
    b.(numWidth := nw, barWidth := b.terminalWidth - Chrome - 2 * nw)
  }

  /** The width of the step counter is the number of decimal digits of the
      total (plus one for a minus sign): one for totals 0 to 9, otherwise
      the `w` with 10^(w-1) <= total < 10^w. */
  lemma SetupSizes(b: Bar)
    ensures var r := Setup(b);
      && (r.steps >= 0 ==> r.steps < Pow10(r.numWidth) && (r.steps >= 1 ==> Pow10(r.numWidth - 1) <= r.steps))
      && (0 <= r.steps < 10 ==> r.numWidth == 1)
      && (r.steps < 0 ==> r.numWidth == 1 + |NatDigits(-r.steps)|)
      && r.numWidth >= 1
  {
    if b.steps >= 0 {
      NatDigitsLength(b.steps);
    }
  }

  /** `progress(steps, updateRateMs)`: counters at zero, a missing rate
      defaults to 200 ms, a missing (zero) terminal width to 60 columns. */
  function New(steps: int, updateRateMs: Option<int>, columns: nat): (r: Bar)
    ensures r.steps == steps && r.currentStep == 0 && r.lastRepaintTime == 0
    ensures r.updateRateMs == updateRateMs.GetOr(DefaultRateMs)
    ensures r.terminalWidth == (if columns == 0 then DefaultColumns else columns)
    ensures LaidOut(r)
  {
    Setup(Bar(steps, 0, updateRateMs.GetOr(DefaultRateMs), 0, 0, 0,
              if columns == 0 then DefaultColumns else columns))
  }

  /** `setTotal(newSteps, stepsDelta)`: a nonzero new total replaces the
      total, otherwise the delta is added; the layout follows the new total
      and the counters stay. Zero stands for "not given". */
  function SetTotal(b: Bar, newSteps: int, stepsDelta: int): (r: Bar)
    ensures newSteps != 0 ==> r.steps == newSteps
    ensures newSteps == 0 ==> r.steps == b.steps + stepsDelta
    ensures LaidOut(r)
    ensures r.currentStep == b.currentStep && r.lastRepaintTime == b.lastRepaintTime
    ensures r.updateRateMs == b.updateRateMs && r.terminalWidth == b.terminalWidth
  {
    if newSteps != 0 then Setup(b.(steps := newSteps))
    else if stepsDelta != 0 then Setup(b.(steps := b.steps + stepsDelta))
    else Setup(b)
  }

  /** `setCurrent(newStep, stepDelta)`: only the current step changes. */
  function SetCurrent(b: Bar, newStep: int, stepDelta: int): (r: Bar)
    ensures newStep != 0 ==> r.currentStep == newStep
    ensures newStep == 0 ==> r.currentStep == b.currentStep + stepDelta
    ensures r.(currentStep := b.currentStep) == b
  {
    if newStep != 0 then b.(currentStep := newStep)
    else if stepDelta != 0 then b.(currentStep := b.currentStep + stepDelta)
    else b
  }

  /** `complete()`: the current step jumps to the total; nothing is painted. */
  function Complete(b: Bar): (r: Bar)
    ensures r.currentStep == r.steps
    ensures r.(currentStep := b.currentStep) == b
  {
    b.(currentStep := b.steps)
  }

  /** Moving the counters never disturbs the layout. */
  lemma CountersKeepLayout(b: Bar, newStep: int, stepDelta: int)
    requires LaidOut(b)
    ensures LaidOut(SetCurrent(b, newStep, stepDelta))
    ensures LaidOut(Complete(b))
  {
  }

  // ---- painting -----------------------------------------------------------------

  function Abs(x: int): nat { if x < 0 then -x else x }

  /** The sign facts about a quotient of naturals, proved apart from
      `TruncDiv` so that the solver sees the division alone. */
  lemma NatQuotient(x: nat, y: nat)
    requires y > 0
    ensures x / y >= 0
    ensures x / y > 0 ==> x > 0
  {
  }

  /** Division truncated toward zero, as `parseInt` of a quotient. */
  function TruncDiv(a: int, d: int): (q: int)
    requires d != 0
    ensures Abs(q) == Abs(a) / Abs(d)
    ensures q > 0 ==> (a > 0) == (d > 0)
    ensures q < 0 ==> (a > 0) != (d > 0)
  {
    var m := Abs(a) / Abs(d);
    NatQuotient(Abs(a), Abs(d));
    if (a < 0) == (d < 0) then m else -m
  }

  /** For a nonnegative quotient, the usual floor bounds. */
  lemma TruncDivBounds(a: int, d: int)
    requires 0 <= a && 0 < d
    ensures TruncDiv(a, d) * d <= a < TruncDiv(a, d) * d + d
  {
  }

  /** What one repaint shows, up to the step counter. */
  datatype Frame = Frame(
    filled: Option<int>,     // `doneBarLength`; None is NaN
    remaining: Option<int>,  // `todoBarLength`
    percent: Option<int>,    // `parseInt(percentage * 100)`
    current: int,
    steps: int,
    numWidth: nat,
    closesLine: bool)        // the trailing newline

  /** The frame painted for the bar `b` (its counters already advanced). */
  function FrameOf(b: Bar): (f: Frame)
    ensures f.current == b.currentStep && f.steps == b.steps && f.numWidth == b.numWidth
    ensures f.closesLine <==> b.currentStep >= b.steps
    ensures b.steps == 0 <==> f.filled.None?
    ensures b.steps == 0 <==> f.remaining.None?
    ensures b.steps == 0 <==> f.percent.None?
    ensures b.steps != 0 ==> f.filled.value + f.remaining.value == b.barWidth
  {
    if b.steps == 0 then
      Frame(None, None, None, b.currentStep, b.steps, b.numWidth, b.currentStep >= b.steps)
    else
      var filled := TruncDiv(b.barWidth * b.currentStep, b.steps);
      Frame(Some(filled), Some(b.barWidth - filled), Some(TruncDiv(100 * b.currentStep, b.steps)),
            b.currentStep, b.steps, b.numWidth, b.currentStep >= b.steps)
  }

  lemma MulMonotone(a: int, b: int, d: int)
    requires a <= b && 0 <= d
    ensures a * d <= b * d
  {
    assert b * d - a * d == (b - a) * d;
  }

  lemma NextMultiple(a: int, d: int)
    ensures (a + 1) * d == a * d + d
  {
  }

  /** A floor quotient `q` of some `x` in [0, k * d] lies in [0, k]. */
  lemma QuotientRange(q: int, x: int, k: int, d: int)
    requires 0 < d && 0 <= x <= k * d && q * d <= x < q * d + d
    ensures 0 <= q <= k
  {
    NextMultiple(q, d);
    NextMultiple(k, d);
    if q < 0 {
      MulMonotone(q + 1, 0, d);
      assert false;
    }
    if q > k {
      MulMonotone(k + 1, q, d);
      assert false;
    }
  }

  /** The floor quotient of `k * d` by `d` is `k`. */
  lemma QuotientExact(q: int, k: int, d: int)
    requires 0 < d && q * d <= k * d < q * d + d
    ensures q == k
  {
    NextMultiple(q, d);
    NextMultiple(k, d);
    if q > k {
      MulMonotone(k + 1, q, d);
      assert false;
    }
    if q < k {
      MulMonotone(q + 1, k, d);
      assert false;
    }
  }

  /** `k * c / d` rounded down stays within [0, k] when `c` is within
      [0, d], and is `k` itself at `c == d`. */
  lemma ScaledQuotient(k: int, c: int, d: int)
    requires 0 <= k && 0 <= c <= d && 0 < d
    ensures 0 <= TruncDiv(k * c, d) <= k
    ensures TruncDiv(k * c, d) * d <= k * c < TruncDiv(k * c, d) * d + d
    ensures c == d ==> TruncDiv(k * c, d) == k
  {
    var x := k * c;
    MulMonotone(c, d, k);
    MulMonotone(0, c, k);
    assert 0 <= x <= k * d;
    var q := TruncDiv(x, d);
    TruncDivBounds(x, d);
    QuotientRange(q, x, k, d);
    if c == d {
      QuotientExact(q, k, d);
    }
  }

  /** Within the total, the bar is split into a filled part proportional to
      the progress, rounded down, and the rest; the percentage lies in
      [0, 100]. A finished bar is entirely filled and shows 100%. */
  lemma FrameBounds(b: Bar)
    requires 0 < b.steps && 0 <= b.currentStep <= b.steps && 0 <= b.barWidth
    ensures var f := FrameOf(b);
      && 0 <= f.filled.value <= b.barWidth
      && f.filled.value * b.steps <= b.barWidth * b.currentStep < f.filled.value * b.steps + b.steps
      && 0 <= f.percent.value <= 100
      && (b.currentStep == b.steps ==> f.filled.value == b.barWidth && f.remaining.value == 0 && f.percent.value == 100)
  {
    ScaledQuotient(b.barWidth, b.currentStep, b.steps);
    ScaledQuotient(100, b.currentStep, b.steps);
  }

  /** A run of `n` copies of `c`; `padStart` treats NaN and negative
      lengths as zero. */
  function GlyphRun(n: Option<int>, c: char): (r: string)
    ensures n.Some? && n.value >= 0 ==> |r| == n.value
    ensures n.None? || n.value <= 0 ==> r == ""
    ensures forall i :: 0 <= i < |r| ==> r[i] == c
  {
    if n.Some? && n.value > 0 then Repeat([c], n.value) else ""
  }

  function PercentText(p: Option<int>): string
  {
    match p
    case None => "NaN"
    case Some(v) => DecimalString(v)
  }

  /** The painted text up to and including the step counter: inside the
      brackets, exactly `filled` squares in green followed by exactly
      `remaining` dots (none for NaN or a negative length); the line ends
      with the counter `<current>/<steps> | `. Between `] ` and that tail
      stand the percentage, padded to four characters with its `%`, and the
      current step, padded to the counter width. */
  function Render(f: Frame): (line: Line)
    ensures |line| == 3 && line[0] == Plain(" [")
    ensures line[1].Styled? && line[1].style == Green && |line[1].body| == 1 && line[1].body[0].Plain?
    ensures var squares := line[1].body[0].s;
      && |squares| == (if f.filled.Some? then Max(f.filled.value, 0) else 0)
      && forall i :: 0 <= i < |squares| ==> squares[i] == '\U{25A0}'
    ensures line[2].Plain?
    ensures var dots := if f.remaining.Some? then Max(f.remaining.value, 0) else 0;
      && |line[2].s| >= dots + 2
      && (forall i :: 0 <= i < dots ==> line[2].s[i] == '\U{00B7}')
      && line[2].s[dots..dots + 2] == "] "
    ensures var tail := "/" + DecimalString(f.steps) + " | ";
      |line[2].s| >= |tail| && line[2].s[|line[2].s| - |tail|..] == tail
    ensures var dots := if f.remaining.Some? then Max(f.remaining.value, 0) else 0;
      var tail := "/" + DecimalString(f.steps) + " | ";
      && |line[2].s| >= dots + 2 + |tail|
      && line[2].s[dots + 2..|line[2].s| - |tail|]
         == PadStart(PercentText(f.percent) + "%", 4, " ") + " | "
            + PadStart(DecimalString(f.current), f.numWidth, " ")
    ensures var counts := PadStart(PercentText(f.percent) + "%", 4, " ") + " | "
                          + PadStart(DecimalString(f.current), f.numWidth, " ");
      var tail := "/" + DecimalString(f.steps) + " | ";
      |line[2].s| >= |counts + tail| && line[2].s[|line[2].s| - |counts + tail|..] == counts + tail
  {
    var dots := GlyphRun(f.remaining, '\U{00B7}');
    var counts := PadStart(PercentText(f.percent) + "%", 4, " ") + " | "
                  + PadStart(DecimalString(f.current), f.numWidth, " ");
    var tail := "/" + DecimalString(f.steps) + " | ";
    TextParts(dots, counts, tail);
    [ Plain(" ["),
      Paint(Green, GlyphRun(f.filled, '\U{25A0}')),
      Plain(dots + "] " + counts + tail) ]
  }

  /** Where the pieces of the text after the bar end up. */
  lemma TextParts(dots: string, counts: string, tail: string)
    ensures var t := dots + "] " + counts + tail;
      && |t| >= |dots| + 2 + |tail|
      && (forall i :: 0 <= i < |dots| ==> t[i] == dots[i])
      && t[|dots|..|dots| + 2] == "] "
      && t[|dots| + 2..|t| - |tail|] == counts
      && t[|t| - |tail|..] == tail
      && t[|t| - |counts + tail|..] == counts + tail
  {
    assert dots + "] " + counts + tail == (dots + "] ") + (counts + tail);
  }

  /** The two bar glyph runs together are exactly the bar width when both
      parts are nonnegative. */
  lemma RenderedBarWidth(b: Bar)
    requires 0 < b.steps && 0 <= b.currentStep <= b.steps && 0 <= b.barWidth
    ensures var line := Render(FrameOf(b));
      && line[1] == Paint(Green, GlyphRun(FrameOf(b).filled, '\U{25A0}'))
      && |GlyphRun(FrameOf(b).filled, '\U{25A0}')| + |GlyphRun(FrameOf(b).remaining, '\U{00B7}')| == b.barWidth
  {
    FrameBounds(b);
  }

  /** The frame of a finished bar reads `100%` and counts the total out of
      the total: its text ends with `100% | <steps>/<steps> | `. */
  lemma FinishedFrameText(b: Bar)
    requires LaidOut(b) && 0 < b.steps && b.currentStep == b.steps
    ensures var text := Render(FrameOf(b))[2].s;
      var shown := "100% | " + DecimalString(b.steps) + "/" + DecimalString(b.steps) + " | ";
      |text| >= |shown| && text[|text| - |shown|..] == shown
  {
    FinishedPercent(b);
    FullCounterText(Render(FrameOf(b))[2].s, FrameOf(b));
  }

  /** A text ending with the counts and tail of a frame at 100%, whose
      counter is as wide as its step, ends with `100% | <steps>/<steps> | `. */
  lemma FullCounterText(text: string, f: Frame)
    requires f.percent == Some(100) && f.current == f.steps && f.numWidth == |DecimalString(f.current)|
    requires var counts := PadStart(PercentText(f.percent) + "%", 4, " ") + " | "
                           + PadStart(DecimalString(f.current), f.numWidth, " ");
      var tail := "/" + DecimalString(f.steps) + " | ";
      |text| >= |counts + tail| && text[|text| - |counts + tail|..] == counts + tail
    ensures var shown := "100% | " + DecimalString(f.steps) + "/" + DecimalString(f.steps) + " | ";
      |text| >= |shown| && text[|text| - |shown|..] == shown
  {
    FinishedCounts(f);
    var d := DecimalString(f.steps);
    assert "100% | " + d + "/" + d + " | " == ("100% | " + d) + ("/" + d + " | ");
  }

  lemma FinishedPercent(b: Bar)
    requires 0 < b.steps && b.currentStep == b.steps
    ensures FrameOf(b).percent == Some(100)
  {
    ScaledQuotient(100, b.currentStep, b.steps);
  }

  /** At 100% with the counter as wide as the current step, neither part
      of the counts is padded. */
  lemma FinishedCounts(f: Frame)
    requires f.percent == Some(100) && f.numWidth == |DecimalString(f.current)|
    ensures PadStart(PercentText(f.percent) + "%", 4, " ") + " | "
            + PadStart(DecimalString(f.current), f.numWidth, " ")
         == "100% | " + DecimalString(f.current)
  {
    HundredText();
  }

  lemma HundredText()
    ensures PercentText(Some(100)) == "100"
  {
    assert NatDigits(1) == "1";
    assert NatDigits(10) == NatDigits(1) + "0";
    assert NatDigits(100) == NatDigits(10) + "0";
  }

  // ---- ticking ------------------------------------------------------------------

  datatype Ticked = Ticked(bar: Bar, frame: Option<Frame>)

  /** `tick(n = 1)` at time `now`: the step advances; the frame is painted
      when the update interval has passed or the new step equals the total
      exactly, and the repaint time moves only when painting. */
  function Tick(b: Bar, n: Option<int>, now: int): (r: Ticked)
    ensures r.bar.currentStep == b.currentStep + n.GetOr(1)
    ensures r.frame.Some? <==> now - b.lastRepaintTime >= b.updateRateMs || b.currentStep + n.GetOr(1) == b.steps
    ensures r.bar.lastRepaintTime == (if r.frame.Some? then now else b.lastRepaintTime)
    ensures r.bar.(currentStep := b.currentStep, lastRepaintTime := b.lastRepaintTime) == b
    ensures r.frame.Some? ==> r.frame.value == FrameOf(r.bar)
    ensures r.frame.Some? ==> (r.frame.value.closesLine <==> b.currentStep + n.GetOr(1) >= b.steps)
  {
    var moved := b.(currentStep := b.currentStep + n.GetOr(1));
    if now - moved.lastRepaintTime < moved.updateRateMs && moved.currentStep != moved.steps then
      Ticked(moved, None)
    else
      var painted := moved.(lastRepaintTime := now);
      Ticked(painted, Some(FrameOf(painted)))
  }

  /** Plain `tick()` calls (one step each), at the given times. */
  function TickAll(b: Bar, times: seq<int>): (r: (Bar, seq<Option<Frame>>))
    ensures |r.1| == |times|
    ensures r.0.currentStep == b.currentStep + |times|
    ensures r.0.steps == b.steps
    decreases |times|
  {
    if |times| == 0 then (b, [])
    else
      var t := Tick(b, None, times[0]);
      var rest := TickAll(t.bar, times[1..]);
      (rest.0, [t.frame] + rest.1)
  }

  predicate ClosesLine(f: Option<Frame>)
  {
    f.Some? && f.value.closesLine
  }

  /** Counting up to the total one step at a time, whatever the timing, the
      line is closed exactly once: by the last tick, which always paints. */
  lemma {:induction false} StepwiseClosesOnce(b: Bar, times: seq<int>)
    requires |times| > 0 && b.currentStep + |times| == b.steps
    ensures ClosesLine(TickAll(b, times).1[|times| - 1])
    ensures forall i :: 0 <= i < |times| - 1 ==> !ClosesLine(TickAll(b, times).1[i])
    decreases |times|
  {
    var t := Tick(b, None, times[0]);
    var frames := TickAll(b, times).1;
    if |times| > 1 {
      StepwiseClosesOnce(t.bar, times[1..]);
      var rest := TickAll(t.bar, times[1..]).1;
      assert frames == [t.frame] + rest;
      forall i | 0 <= i < |times| - 1
        ensures !ClosesLine(frames[i])
      {
        if i > 0 {
          assert frames[i] == rest[i - 1];
        }
      }
    }
  }

  /** Ten ticks of one step on a bar of ten, at any times. */
  lemma TenTicks(times: seq<int>, columns: nat)
    requires |times| == 10
    ensures var frames := TickAll(New(10, None, columns), times).1;
      && ClosesLine(frames[9])
      && forall i :: 0 <= i < 9 ==> !ClosesLine(frames[i])
  {
    StepwiseClosesOnce(New(10, None, columns), times);
  }

  // ---- overshooting the total ---------------------------------------------------

  /** A tick that jumps past the total inside the update interval is
      throttled: the bar keeps its old frame and its line stays open. */
  lemma OvershootIsThrottled()
    ensures var b := New(10, None, 80).(currentStep := 9, lastRepaintTime := 1000);
      var t := Tick(b, Some(3), 1100);
      && t.frame.None?
      && t.bar.currentStep == 12 > t.bar.steps
      && t.bar.lastRepaintTime == 1000
  {
  }

  /** `tick` with the forced repaint on the tick that reaches or passes the
      total, rather than only on one that lands on it exactly. */
  function TickIntended(b: Bar, n: Option<int>, now: int): (r: Ticked)
    ensures r.bar.currentStep == b.currentStep + n.GetOr(1)
    ensures r.bar.(currentStep := b.currentStep, lastRepaintTime := b.lastRepaintTime) == b
    ensures r.frame.Some? ==> r.frame.value == FrameOf(r.bar)
  {
    var moved := b.(currentStep := b.currentStep + n.GetOr(1));
    var finishing := moved.currentStep == moved.steps || b.currentStep < b.steps < moved.currentStep;
    if now - moved.lastRepaintTime < moved.updateRateMs && !finishing then
      Ticked(moved, None)
    else
      var painted := moved.(lastRepaintTime := now);
      Ticked(painted, Some(FrameOf(painted)))
  }

  /** The corrected tick paints and closes the line whenever it carries the
      bar from below its total to or past it; on every other tick it does
      what `tick` does. */
  lemma TickIntendedFinishes(b: Bar, n: Option<int>, now: int)
    ensures b.currentStep < b.steps <= b.currentStep + n.GetOr(1) ==> ClosesLine(TickIntended(b, n, now).frame)
    ensures !(b.currentStep < b.steps < b.currentStep + n.GetOr(1)) ==> TickIntended(b, n, now) == Tick(b, n, now)
  {
  }
}

=== FILE: registry.dfy ===
/** The command registry `getCommands` (index.js:278-319).

    The application's class chain is given as the own method names of each
    class, from the most derived class (the application) down to the
    `Clitter` base class, each list in own-property order. The registry keeps
    the `cmd_` methods with the prefix cut off, lists the base class first,
    then removes the first occurrence of every name in `help.hide`. A command
    overridden in a subclass is listed once per class that declares it:
    nothing is de-duplicated. */
module Registry {
  import opened JsStrings

  const Prefix: string := "cmd_"

  /** Each name with the `cmd_` prefix put back. */
  function Prefixed(names: seq<string>): seq<string>
    decreases |names|
  {
    if |names| == 0 then [] else [Prefix + names[0]] + Prefixed(names[1..])
  }

  /** The `cmd_` methods among `methods`, in their order. */
  function CmdMethods(methods: seq<string>): seq<string>
    decreases |methods|
  {
    if |methods| == 0 then []
    else (if StartsWith(methods[0], Prefix) then [methods[0]] else []) + CmdMethods(methods[1..])
  }

  /** The commands one class declares, prefix removed, in declaration order
    (one entry per `cmd_` method: `ClassCommandsCounts`,
    `ClassCommandsInOrder`). */
  function ClassCommands(methods: seq<string>): (r: seq<string>)
    ensures forall c :: c in r <==> Prefix + c in methods
    decreases |methods|
  {
    if |methods| == 0 then []
    else
      var rest := ClassCommands(methods[1..]);
      assert forall c :: Prefix + c in methods <==> Prefix + c == methods[0] || Prefix + c in methods[1..];
      if StartsWith(methods[0], Prefix) then
        assert methods[0] == Prefix + methods[0][4..];
        [methods[0][4..]] + rest
      else
        rest
  }

  /** Each `cmd_` method gives exactly one entry: a command occurs as often
      as the class declares its `cmd_` method. */
  lemma {:induction false} ClassCommandsCounts(methods: seq<string>)
    ensures forall c :: multiset(ClassCommands(methods))[c] == multiset(methods)[Prefix + c]
    decreases |methods|
  {
    if |methods| > 0 {
      ClassCommandsCounts(methods[1..]);
      var rest := ClassCommands(methods[1..]);
      assert methods == [methods[0]] + methods[1..];
      if StartsWith(methods[0], Prefix) {
        KeepStep(methods[0], methods[1..], rest);
      } else {
        SkipStep(methods[0], methods[1..], rest);
      }
    }
  }

  /** A `cmd_` method in front adds its command in front. */
  lemma KeepStep(m: string, later: seq<string>, rest: seq<string>)
    requires StartsWith(m, Prefix)
    requires forall c :: multiset(rest)[c] == multiset(later)[Prefix + c]
    ensures forall c :: multiset([m[4..]] + rest)[c] == multiset([m] + later)[Prefix + c]
  {
    assert m == Prefix + m[4..];
    forall c ensures multiset([m[4..]] + rest)[c] == multiset([m] + later)[Prefix + c] {
      if Prefix + c == m { assert (Prefix + c)[4..] == c; }
    }
  }

  /** Any other method in front adds nothing. */
  lemma SkipStep(m: string, later: seq<string>, rest: seq<string>)
    requires !StartsWith(m, Prefix)
    requires forall c :: multiset(rest)[c] == multiset(later)[Prefix + c]
    ensures forall c :: multiset(rest)[c] == multiset([m] + later)[Prefix + c]
  {
    forall c ensures multiset(rest)[c] == multiset([m] + later)[Prefix + c] {
      assert (Prefix + c)[..4] == Prefix;
    }
  }

  /** The commands come in declaration order: putting the prefix back gives
      exactly the class's `cmd_` methods, in their order. */
  lemma {:induction false} ClassCommandsInOrder(methods: seq<string>)
    ensures Prefixed(ClassCommands(methods)) == CmdMethods(methods)
    decreases |methods|
  {
    if |methods| > 0 {
      ClassCommandsInOrder(methods[1..]);
      var rest := ClassCommands(methods[1..]);
      if StartsWith(methods[0], Prefix) {
        var r := [methods[0][4..]] + rest;
        assert methods[0] == Prefix + methods[0][4..];
        assert r[1..] == rest;
      }
    }
  }

  function Reverse<T>(s: seq<T>): (r: seq<T>)
    ensures |r| == |s|
    ensures forall i :: 0 <= i < |s| ==> r[i] == s[|s| - 1 - i]
    decreases |s|
  {
    if |s| == 0 then [] else Reverse(s[1..]) + [s[0]]
  }

  /** `[].concat(...lists)`. */
  function Flatten<T>(lists: seq<seq<T>>): seq<T>
    decreases |lists|
  {
    if |lists| == 0 then [] else lists[0] + Flatten(lists[1..])
  }

  /** The per-class lists the `while` loop collects, most derived first. */
  function MethodSets(chain: seq<seq<string>>): (sets: seq<seq<string>>)
    ensures |sets| == |chain|
    ensures forall i :: 0 <= i < |chain| ==> sets[i] == ClassCommands(chain[i])
  {
    seq(|chain|, i requires 0 <= i < |chain| => ClassCommands(chain[i]))
  }

  /** `[].concat(...(methodSet.reverse()))`: every command, base class first. */
  function Collected(chain: seq<seq<string>>): seq<string>
  {
    Flatten(Reverse(MethodSets(chain)))
  }

  lemma FlattenAppend<T>(a: seq<seq<T>>, b: seq<T>)
    ensures Flatten(a + [b]) == Flatten(a) + b
    decreases |a|
  {
    if |a| > 0 {
      assert (a + [b])[1..] == a[1..] + [b];
      FlattenAppend(a[1..], b);
    }
  }

  /** The collected list is the base classes' commands followed by those of
      the most derived class, in its declaration order. */
  lemma {:induction false} CollectedBaseFirst(chain: seq<seq<string>>)
    requires |chain| > 0
    ensures Collected(chain) == Collected(chain[1..]) + ClassCommands(chain[0])
  {
    var sets := MethodSets(chain);
    var tail := MethodSets(chain[1..]);
    assert sets[1..] == tail;
    assert Reverse(sets) == Reverse(tail) + [sets[0]];
    FlattenAppend(Reverse(tail), sets[0]);
  }

  /** A command is collected exactly when some class of the chain declares
      its `cmd_` method. */
  lemma {:induction false} CollectedMembers(chain: seq<seq<string>>, c: string)
    ensures c in Collected(chain) <==> exists i :: 0 <= i < |chain| && Prefix + c in chain[i]
    decreases |chain|
  {
    if |chain| == 0 {
      assert Collected(chain) == [];
    } else {
      CollectedBaseFirst(chain);
      CollectedMembers(chain[1..], c);
      assert forall i :: 1 <= i < |chain| ==> chain[i] == chain[1..][i - 1];
      if Prefix + c in chain[0] {
      } else if exists i :: 0 <= i < |chain| && Prefix + c in chain[i] {
        var i :| 0 <= i < |chain| && Prefix + c in chain[i];
        assert Prefix + c in chain[1..][i - 1];
      }
    }
  }

  /** No de-duplication: a command declared by two classes of the chain is
      collected twice. */
  lemma {:induction false} OverrideCollectedTwice(chain: seq<seq<string>>, c: string, i: nat, j: nat)
    requires i < j < |chain|
    requires Prefix + c in chain[i] && Prefix + c in chain[j]
    ensures multiset(Collected(chain))[c] >= 2
    decreases i
  {
    CollectedBaseFirst(chain);
    assert chain[j] == chain[1..][j - 1];
    if i == 0 {
      CollectedMembers(chain[1..], c);
      assert c in ClassCommands(chain[0]);
    } else {
      assert chain[i] == chain[1..][i - 1];
      OverrideCollectedTwice(chain[1..], c, i - 1, j - 1);
    }
  }

  // ---- hiding ---------------------------------------------------------------

  /** `a` is `b` with some elements deleted. */
  predicate IsSubsequence<T(==)>(a: seq<T>, b: seq<T>)
    decreases |b|
  {
    |a| == 0
    || (|b| > 0 && ((a[0] == b[0] && IsSubsequence(a[1..], b[1..])) || IsSubsequence(a, b[1..])))
  }

  lemma {:induction false} SubsequenceRefl<T>(s: seq<T>)
    ensures IsSubsequence(s, s)
    decreases |s|
  {
    if |s| > 0 { SubsequenceRefl(s[1..]); }
  }

  lemma {:induction false} SubsequenceTrans<T>(a: seq<T>, b: seq<T>, c: seq<T>)
    requires IsSubsequence(a, b) && IsSubsequence(b, c)
    ensures IsSubsequence(a, c)
    decreases |c|
  {
    if |a| > 0 {
      if |b| > 0 && b[0] == c[0] && IsSubsequence(b[1..], c[1..]) {
        if a[0] == b[0] && IsSubsequence(a[1..], b[1..]) {
          SubsequenceTrans(a[1..], b[1..], c[1..]);
        } else {
          SubsequenceTrans(a, b[1..], c[1..]);
        }
      } else {
        SubsequenceTrans(a, b, c[1..]);
      }
    }
  }

  /** Deleting position i leaves a subsequence. */
  lemma {:induction false} DeleteIsSubsequence<T>(s: seq<T>, i: nat)
    requires i < |s|
    ensures IsSubsequence(s[..i] + s[i + 1..], s)
    decreases i
  {
    var r := s[..i] + s[i + 1..];
    if i == 0 {
      assert r == s[1..];
      SubsequenceRefl(s[1..]);
    } else {
      DeleteIsSubsequence(s[1..], i - 1);
      assert r[0] == s[0];
      assert r[1..] == s[1..][..i - 1] + s[1..][i..];
    }
  }

  /** One turn of the hide loop: `splice(indexOf(cmd), 1)` when found. */
  function RemoveFirst(methods: seq<string>, cmd: string): (r: seq<string>)
    ensures cmd !in methods ==> r == methods
    ensures cmd in methods ==> |r| == |methods| - 1
    ensures cmd in methods ==> exists i :: 0 <= i < |methods| && methods[i] == cmd && cmd !in methods[..i]
                                           && r == methods[..i] + methods[i + 1..]
    ensures multiset(r) == multiset(methods) - multiset([cmd])
    ensures IsSubsequence(r, methods)
  {
    var idx := IndexOf(methods, cmd);
    if idx > -1 then
      DeleteIsSubsequence(methods, idx);
      assert methods == methods[..idx] + [cmd] + methods[idx + 1..];
      methods[..idx] + methods[idx + 1..]
    else
      SubsequenceRefl(methods);
      methods
  }

  /** The hide loop: the first remaining occurrence of each hidden name is
      removed, in the order of `hidden`. Exactly one copy per entry goes,
      as long as one is left, and the copies that go are the earliest ones:
      what stays are the `Survivors`. */
  function RemoveHidden(methods: seq<string>, hidden: seq<string>): (r: seq<string>)
    ensures multiset(r) == multiset(methods) - multiset(hidden)
    ensures IsSubsequence(r, methods)
    ensures r == Survivors(methods, multiset(hidden))
    decreases |hidden|
  {
    if |hidden| == 0 then
      SubsequenceRefl(methods);
      SurvivorsOfNothing(methods);
      methods
    else
      var once := RemoveFirst(methods, hidden[0]);
      var r := RemoveHidden(once, hidden[1..]);
      SubsequenceTrans(r, once, methods);
      HiddenStep(multiset(methods), multiset(once), multiset(r), hidden);
      SurvivorsStep(methods, hidden);
      r
  }

  /** The entries a hide list leaves, defined position by position: an entry
      stays when at least as many copies of its name stand before it as the
      hide list names. */
  function Survivors(methods: seq<string>, hidden: multiset<string>): seq<string>
    decreases |methods|
  {
    if |methods| == 0 then []
    else
      var init := methods[..|methods| - 1];
      var last := methods[|methods| - 1];
      Survivors(init, hidden) + (if multiset(init)[last] >= hidden[last] then [last] else [])
  }

  /** The same list walked from the front: a copy is dropped while the
      budget still names it, and each drop spends one entry of the budget. */
  function Spend(methods: seq<string>, budget: multiset<string>): seq<string>
    decreases |methods|
  {
    if |methods| == 0 then []
    else if methods[0] in budget then Spend(methods[1..], budget - multiset{methods[0]})
    else [methods[0]] + Spend(methods[1..], budget)
  }

  lemma {:induction false} SpendSnoc(init: seq<string>, last: string, budget: multiset<string>)
    ensures Spend(init + [last], budget)
         == Spend(init, budget) + (if multiset(init)[last] >= budget[last] then [last] else [])
    decreases |init|
  {
    if |init| == 0 {
      assert init + [last] == [last];
      assert [last][1..] == [];
    } else {
      var a := init[0];
      assert (init + [last])[0] == a;
      assert (init + [last])[1..] == init[1..] + [last];
      assert init == [a] + init[1..];
      assert multiset(init) == multiset{a} + multiset(init[1..]);
      if a in budget {
        SpendSnoc(init[1..], last, budget - multiset{a});
      } else {
        SpendSnoc(init[1..], last, budget);
      }
    }
  }

  /** Walking from the front and deciding position by position agree. */
  lemma {:induction false} SpendIsSurvivors(methods: seq<string>, budget: multiset<string>)
    ensures Spend(methods, budget) == Survivors(methods, budget)
    decreases |methods|
  {
    if |methods| > 0 {
      var init := methods[..|methods| - 1];
      var last := methods[|methods| - 1];
      assert methods == init + [last];
      SpendSnoc(init, last, budget);
      SpendIsSurvivors(init, budget);
    }
  }

  /** Deleting the first copy of a name is spending one more entry on it. */
  lemma {:induction false} SpendDelete(methods: seq<string>, i: nat, budget: multiset<string>)
    requires i < |methods| && methods[i] !in methods[..i]
    ensures Spend(methods[..i] + methods[i + 1..], budget) == Spend(methods, budget + multiset{methods[i]})
    decreases i
  {
    var x := methods[i];
    var cut := methods[..i] + methods[i + 1..];
    if i == 0 {
      assert cut == methods[1..];
      assert (budget + multiset{x}) - multiset{x} == budget;
    } else {
      var a := methods[0];
      assert a == methods[..i][0];
      assert cut[0] == a;
      assert cut[1..] == methods[1..][..i - 1] + methods[1..][i..];
      assert methods[1..][i - 1] == x;
      assert methods[1..][..i - 1] == methods[..i][1..];
      if a in budget {
        SpendDelete(methods[1..], i - 1, budget - multiset{a});
        assert (budget - multiset{a}) + multiset{x} == (budget + multiset{x}) - multiset{a};
      } else {
        SpendDelete(methods[1..], i - 1, budget);
      }
    }
  }

  /** Budget for a name that does not occur is never spent. */
  lemma {:induction false} SpendAbsent(methods: seq<string>, x: string, budget: multiset<string>)
    requires x !in methods
    ensures Spend(methods, budget + multiset{x}) == Spend(methods, budget)
    decreases |methods|
  {
    if |methods| > 0 {
      var a := methods[0];
      if a in budget {
        assert (budget + multiset{x}) - multiset{a} == (budget - multiset{a}) + multiset{x};
        SpendAbsent(methods[1..], x, budget - multiset{a});
      } else {
        SpendAbsent(methods[1..], x, budget);
      }
    }
  }

  /** One turn of the hide loop followed by the remaining entries leaves the
      same survivors as all entries at once. */
  lemma SurvivorsStep(methods: seq<string>, hidden: seq<string>)
    requires |hidden| > 0
    ensures Survivors(RemoveFirst(methods, hidden[0]), multiset(hidden[1..]))
         == Survivors(methods, multiset(hidden))
  {
    var x := hidden[0];
    var rest := multiset(hidden[1..]);
    assert hidden == [x] + hidden[1..];
    assert multiset(hidden) == rest + multiset{x};
    var once := RemoveFirst(methods, x);
    SpendIsSurvivors(once, rest);
    SpendIsSurvivors(methods, multiset(hidden));
    if x in methods {
      var i :| 0 <= i < |methods| && methods[i] == x && x !in methods[..i]
               && once == methods[..i] + methods[i + 1..];
      SpendDelete(methods, i, rest);
    } else {
      SpendAbsent(methods, x, rest);
    }
  }

  /** A leaf class that overrides a base command `a` and hides it once:
      the base copy goes and the leaf's copy stays in the leaf's place. */
  lemma HideDropsBaseCopy()
    ensures RemoveHidden(["a", "b", "a"], ["a"]) == ["b", "a"]
  {
    var m := ["a", "b", "a"];
    SpendIsSurvivors(m, multiset{"a"});
    assert m[1..] == ["b", "a"] && m[1..][1..] == ["a"];
    assert multiset{"a"} - multiset{"a"} == multiset{};
    SpendNothing(["a"]);
    assert Spend(["b", "a"], multiset{}) == ["b"] + Spend(["a"], multiset{});
  }

  /** An empty hide list leaves every entry. */
  lemma SurvivorsOfNothing(methods: seq<string>)
    ensures Survivors(methods, multiset{}) == methods
  {
    SpendNothing(methods);
    SpendIsSurvivors(methods, multiset{});
  }

  lemma {:induction false} SpendNothing(methods: seq<string>)
    ensures Spend(methods, multiset{}) == methods
    decreases |methods|
  {
    if |methods| > 0 {
      SpendNothing(methods[1..]);
      assert methods == [methods[0]] + methods[1..];
    }
  }

  lemma DiffTwice<T>(a: multiset<T>, x: multiset<T>, y: multiset<T>)
    ensures (a - x) - y == a - (x + y)
  {
    forall e ensures ((a - x) - y)[e] == (a - (x + y))[e] { }
  }

  /** Removing the first hide entry and then the others removes them all. */
  lemma HiddenStep<T>(all: multiset<T>, once: multiset<T>, r: multiset<T>, hidden: seq<T>)
    requires |hidden| > 0
    requires once == all - multiset([hidden[0]])
    requires r == once - multiset(hidden[1..])
    ensures r == all - multiset(hidden)
  {
    assert hidden == [hidden[0]] + hidden[1..];
    DiffTwice(all, multiset([hidden[0]]), multiset(hidden[1..]));
  }

  /** `getCommands()`: the collected commands, base class first, with one
      copy removed per hide entry while one is left, the rest in order. */
  function GetCommands(chain: seq<seq<string>>, hidden: seq<string>): (listed: seq<string>)
    ensures multiset(listed) == multiset(Collected(chain)) - multiset(hidden)
    ensures IsSubsequence(listed, Collected(chain))
    ensures listed == Survivors(Collected(chain), multiset(hidden))
  {
    RemoveHidden(Collected(chain), hidden)
  }

  /** The registry lists each command as many times as the classes declare
      it, less the times it is hidden: each hide entry takes exactly one copy
      while one is left. */
  lemma RegistryCounts(chain: seq<seq<string>>, hidden: seq<string>, c: string)
    ensures multiset(GetCommands(chain, hidden))[c]
         == Max(multiset(Collected(chain))[c] as int - multiset(hidden)[c] as int, 0)
  {
    assert multiset(GetCommands(chain, hidden)) == multiset(Collected(chain)) - multiset(hidden);
  }

  /** No de-duplication: a command that two classes of the chain declare
      (a subclass overriding a base command) and that is not hidden is listed
      twice. */
  lemma OverriddenListedTwice(chain: seq<seq<string>>, hidden: seq<string>, c: string, i: nat, j: nat)
    requires i < j < |chain|
    requires Prefix + c in chain[i] && Prefix + c in chain[j]
    requires c !in hidden
    ensures multiset(GetCommands(chain, hidden))[c] >= 2
  {
    OverrideCollectedTwice(chain, c, i, j);
    RegistryCounts(chain, hidden, c);
    assert multiset(hidden)[c] == 0;
  }

  /** A command is listed iff some class declares it and it was declared
      more often than it is hidden; in particular a hidden command that only
      one class declares is gone. */
  lemma ListedIff(chain: seq<seq<string>>, hidden: seq<string>, c: string)
    ensures c in GetCommands(chain, hidden) <==> multiset(Collected(chain))[c] > multiset(hidden)[c]
    ensures c in GetCommands(chain, hidden) ==> exists i :: 0 <= i < |chain| && Prefix + c in chain[i]
  {
    RegistryCounts(chain, hidden, c);
    if c in GetCommands(chain, hidden) {
      CollectedMembers(chain, c);
    }
  }
}

=== FILE: spinner.dfy ===
/** The spinner `spinner()` returns (index.js:483-557).

    The spinner is a record; the 100 ms interval timer is the flag
    `timerActive`, and each firing of it is the transition `TimerFire`. Every
    paint yields the frame it writes: an in-progress frame (hidden cursor,
    the next glyph in green, the message) or a final frame (a green check
    mark or a red cross, the message, cursor shown again, newline). */
module Spinner {
  import opened Options
  import opened Terminal

  /** The ten braille glyphs, in order. */
  const Glyphs: string := "\U{280B}\U{2819}\U{2839}\U{2838}\U{283C}\U{2834}\U{2826}\U{2827}\U{2807}\U{280F}"
  const DefaultMessage: string := "Processing"

  datatype State = State(
    message: string,
    isComplete: bool,
    isSuccess: bool,
    timerActive: bool,
    spinnerPos: int)

  datatype Frame =
    | Spin(glyph: char, message: string)    // ' \x1B[?25l' + glyph + ' ' + message
    | Final(success: bool, message: string) // ' ✔ msg' or ' ✘ msg', then '\x1B[?25h\n'

  /** The text a frame writes after clearing the line. The cursor is hidden
      exactly by an in-progress frame, and shown again, with a newline, exactly
      by a final one; the mark is a green check for success and a red cross
      otherwise. */
  function FrameText(f: Frame): (line: Line)
    ensures |line| == if f.Spin? then 3 else 5
    ensures f.Spin? <==> line[0] == Plain(" \U{1B}[?25l")
    ensures f.Final? <==> line[|line| - 1] == Plain("\U{1B}[?25h\n")
    ensures f.Spin? ==> line[1] == Terminal.Paint(Green, [f.glyph]) && line[2] == Plain(" " + f.message)
    ensures f.Final? ==>
      && line[1] == (if f.success then Terminal.Paint(Green, "\U{2714}") else Terminal.Paint(Red, "\U{2718}"))
      && line[3] == Terminal.Paint(if f.success then Gray else RedBold, f.message)
  {
    match f
    case Spin(g, m) =>
      assert (" " + m)[0] == ' ';
      [Plain(" \U{1B}[?25l"), Terminal.Paint(Green, [g]), Plain(" " + m)]
    case Final(true, m) => [Plain(" "), Terminal.Paint(Green, "\U{2714}"), Plain(" "), Terminal.Paint(Gray, m), Plain("\U{1B}[?25h\n")]
    case Final(false, m) => [Plain(" "), Terminal.Paint(Red, "\U{2718}"), Plain(" "), Terminal.Paint(RedBold, m), Plain("\U{1B}[?25h\n")]
  }

  /** `spinner(message)`: not complete, the timer running, before the first
      glyph. A missing message reads "Processing". */
  function New(message: Option<string>): (s: State)
    ensures s.message == message.GetOr(DefaultMessage)
    ensures !s.isComplete && !s.isSuccess && s.timerActive && s.spinnerPos == -1
  {
    State(message.GetOr(DefaultMessage), false, false, true, -1)
  }

  /** `spinner()`: the position advances by one and wraps to 0 when it
      reaches the glyph count. */
  function NextPos(pos: int): (r: int)
    ensures -1 <= pos < |Glyphs| ==> 0 <= r < |Glyphs| && r == (pos + 1) % |Glyphs|
  {
    if pos + 1 == |Glyphs| then 0 else pos + 1
  }

  /** `paint(msg)`: while in progress, the position moves one glyph on
      (modulo the glyph count) and the frame shows the glyph at the new
      position with the spinner's own message (the argument is ignored); once
      complete, nothing moves and the final mark shows success or failure
      with `msg` when truthy ("" stands for falsy), else the spinner's
      message. Only the position ever changes. */
  function Repaint(s: State, msg: string): (r: (State, Frame))
    requires -1 <= s.spinnerPos < |Glyphs|
    ensures r.0.(spinnerPos := s.spinnerPos) == s
    ensures !s.isComplete ==>
      && r.0.spinnerPos == (s.spinnerPos + 1) % |Glyphs|
      && r.1.Spin? && r.1.glyph == Glyphs[r.0.spinnerPos] && r.1.message == s.message
    ensures s.isComplete ==> r.0 == s && r.1.Final? && r.1.success == s.isSuccess
    ensures s.isComplete && msg != "" ==> r.1.message == msg
    ensures s.isComplete && msg == "" ==> r.1.message == s.message
  {
    if !s.isComplete then
      var p := NextPos(s.spinnerPos);
      (s.(spinnerPos := p), Spin(Glyphs[p], s.message))
    else
      (s, Final(s.isSuccess, if msg != "" then msg else s.message))
  }

  /** One firing of the interval timer: it writes a frame exactly while the
      timer runs, and then the next glyph (or, on a completed spinner whose
      timer still runs, its final mark with its own message); a cleared timer
      changes nothing. Only the position ever changes. */
  function TimerFire(s: State): (r: (State, Option<Frame>))
    requires -1 <= s.spinnerPos < |Glyphs|
    ensures r.1.Some? <==> s.timerActive
    ensures !s.timerActive ==> r.0 == s
    ensures r.0.(spinnerPos := s.spinnerPos) == s
    ensures s.timerActive && !s.isComplete ==>
      && r.0.spinnerPos == (s.spinnerPos + 1) % |Glyphs|
      && r.1 == Some(Spin(Glyphs[r.0.spinnerPos], s.message))
    ensures s.timerActive && s.isComplete ==> r.0 == s && r.1 == Some(Final(s.isSuccess, s.message))
  {
    if s.timerActive then
      var (t, f) := Repaint(s, "");
      (t, Some(f))
    else (s, None)
  }

  /** `done(msg)`: clear the timer, mark complete and successful, paint. */
  function Done(s: State, msg: string): (r: (State, Frame))
    requires -1 <= s.spinnerPos < |Glyphs|
    ensures r.0 == s.(isComplete := true, isSuccess := true, timerActive := false)
    ensures r.1 == Final(true, if msg != "" then msg else s.message)
  {
    Repaint(s.(isComplete := true, isSuccess := true, timerActive := false), msg)
  }

  /** `fail(msg)`: clear the timer, mark complete, paint. `isSuccess` is
      left as it was. */
  function Fail(s: State, msg: string): (r: (State, Frame))
    requires -1 <= s.spinnerPos < |Glyphs|
    ensures r.0 == s.(isComplete := true, timerActive := false)
    ensures r.1 == Final(s.isSuccess, if msg != "" then msg else s.message)
  {
    Repaint(s.(isComplete := true, timerActive := false), msg)
  }

  // ---- runs of the timer ----------------------------------------------------------

  /** `k` firings of the timer, with the frames they write. */
  function Fire(s: State, k: nat): (r: (State, seq<Frame>))
    requires -1 <= s.spinnerPos < |Glyphs|
    ensures -1 <= r.0.spinnerPos < |Glyphs|
    ensures r.0.(spinnerPos := s.spinnerPos) == s
    decreases k
  {
    if k == 0 then (s, [])
    else
      match TimerFire(s)
      case (t, None) => (t, [])
      case (t, Some(f)) =>
        var rest := Fire(t, k - 1);
        (rest.0, [f] + rest.1)
  }

  /** The position after `k` advances from `p`. */
  function PosAfter(p: int, k: nat): (r: int)
    requires -1 <= p < 10
    ensures k > 0 ==> 0 <= r < 10
    ensures k == 0 ==> r == p
    decreases k
  {
    if k == 0 then p else PosAfter(NextPos(p), k - 1)
  }

  /** The in-progress frames `k` paints from position `p` write. */
  function SpinFrames(p: int, k: nat, message: string): (r: seq<Frame>)
    requires -1 <= p < 10
    ensures |r| == k
    decreases k
  {
    if k == 0 then []
    else
      assert |Glyphs| == 10;
      [Spin(Glyphs[NextPos(p)], message)] + SpinFrames(NextPos(p), k - 1, message)
  }

  /** While the timer runs and the spinner is not complete, every firing
      paints the next glyph. */
  lemma {:induction false} FireRunning(s: State, k: nat)
    requires s.timerActive && !s.isComplete && -1 <= s.spinnerPos < 10
    ensures Fire(s, k) == (s.(spinnerPos := PosAfter(s.spinnerPos, k)), SpinFrames(s.spinnerPos, k, s.message))
    decreases k
  {
    assert |Glyphs| == 10;
    if k > 0 {
      var t := s.(spinnerPos := NextPos(s.spinnerPos));
      assert TimerFire(s) == (t, Some(Spin(Glyphs[NextPos(s.spinnerPos)], s.message)));
      FireRunning(t, k - 1);
    }
  }

  /** Advancing once and then `i` more is advancing `i + 1`, modulo 10. */
  lemma NextPosShift(p: int, i: nat)
    requires -1 <= p < 10
    ensures (NextPos(p) + i) % 10 == (p + i + 1) % 10
  {
    if p + 1 == 10 {
      assert (p + i + 1) % 10 == (10 + i) % 10 == i % 10;
    }
  }

  /** Advancing `k > 0` times from `p` lands on `(p + k) mod 10`. */
  lemma {:induction false} PosAfterMod(p: int, k: nat)
    requires -1 <= p < 10 && k > 0
    ensures PosAfter(p, k) == (p + k) % 10
    decreases k
  {
    assert |Glyphs| == 10;
    if k > 1 {
      PosAfterMod(NextPos(p), k - 1);
      NextPosShift(p, k - 1);
    }
  }

  /** The `i`-th of the frames painted from `p` shows the glyph `i + 1`
      advances past `p`. */
  lemma {:induction false} SpinFramesAt(p: int, k: nat, message: string)
    requires -1 <= p < 10
    ensures forall i :: 0 <= i < k ==> SpinFrames(p, k, message)[i] == Spin(Glyphs[PosAfter(p, i + 1)], message)
    decreases k
  {
    assert |Glyphs| == 10;
    if k > 0 {
      var q := NextPos(p);
      SpinFramesAt(q, k - 1, message);
      var rest := SpinFrames(q, k - 1, message);
      assert SpinFrames(p, k, message) == [Spin(Glyphs[q], message)] + rest;
      forall i | 0 <= i < k
        ensures SpinFrames(p, k, message)[i] == Spin(Glyphs[PosAfter(p, i + 1)], message)
      {
        if i > 0 {
          assert SpinFrames(p, k, message)[i] == rest[i - 1];
          assert PosAfter(p, i + 1) == PosAfter(q, i);
        }
      }
    }
  }

  /** While the spinner runs, the `k`-th frame (counting from 1) shows glyph
      `(k - 1) mod 10` past the start and the spinner's message, and the
      position after `k` frames is the start advanced `k` times, modulo 10. */
  lemma {:induction false} FramesCycleGlyphs(s: State, k: nat)
    requires s.timerActive && !s.isComplete && -1 <= s.spinnerPos < |Glyphs|
    ensures var r := Fire(s, k);
      && |r.1| == k
      && r.0.spinnerPos == (if k == 0 then s.spinnerPos else (s.spinnerPos + k) % 10)
      && forall i :: 0 <= i < k ==> r.1[i] == Spin(Glyphs[(s.spinnerPos + i + 1) % 10], s.message)
  {
    assert |Glyphs| == 10;
    var r := Fire(s, k);
    FireRunning(s, k);
    var frames := SpinFrames(s.spinnerPos, k, s.message);
    assert r.1 == frames && r.0.spinnerPos == PosAfter(s.spinnerPos, k);
    if k > 0 {
      PosAfterMod(s.spinnerPos, k);
    }
    SpinFramesAt(s.spinnerPos, k, s.message);
    forall i | 0 <= i < k
      ensures r.1[i] == Spin(Glyphs[(s.spinnerPos + i + 1) % 10], s.message)
    {
      PosAfterMod(s.spinnerPos, i + 1);
    }
  }

  /** From a fresh spinner, the `k`-th frame shows glyph `(k - 1) mod 10`. */
  lemma {:induction false} FreshSpinnerFrames(message: Option<string>, k: nat)
    ensures var r := Fire(New(message), k);
      && |r.1| == k
      && forall i :: 0 <= i < k ==> r.1[i] == Spin(Glyphs[i % 10], message.GetOr(DefaultMessage))
  {
    FramesCycleGlyphs(New(message), k);
  }

  /** After `done` or `fail` the timer is cleared: no firing writes anything. */
  lemma NothingAfterFinish(s: State, msg: string, k: nat)
    requires -1 <= s.spinnerPos < |Glyphs|
    ensures Fire(Done(s, msg).0, k).1 == []
    ensures Fire(Fail(s, msg).0, k).1 == []
  {
  }

  /** `fail` after `done` shows the success mark again: `isSuccess` stays
      set. Nothing guards against a second call, so each call paints. */
  lemma FailAfterDone(s: State, m1: string, m2: string)
    requires -1 <= s.spinnerPos < |Glyphs|
    ensures var d := Done(s, m1);
      && Fail(d.0, m2).1 == Final(true, if m2 != "" then m2 else s.message)
      && Done(d.0, m2).1 == Final(true, if m2 != "" then m2 else s.message)
  {
  }

  /** A failure before any success shows the cross. */
  lemma FailShowsCross(message: Option<string>, msg: string, k: nat)
    ensures var r := Fire(New(message), k);
      Fail(r.0, msg).1 == Final(false, if msg != "" then msg else message.GetOr(DefaultMessage))
  {
  }
}

=== FILE: terminal.dfy ===
/** Terminal output as the library writes it, with the ANSI colour table
    kept opaque: a styled piece of text records which wrapper of the colour
    table (index.js:5-65) it goes through, not the escape codes. */
module Terminal {

  /** The entries of the colour table the modelled code uses. */
  datatype Style =
    | HelpHeader | HelpGroupHeader | HelpCmd | HelpCmdExample
    | HelpCmdExampleDesc | HelpFlags
    | Gray | Green | Red | RedBold

  /** A piece of output: literal text, or text passed through one colour
      wrapper (wrappers may nest, as the version inside the help header). */
  datatype Text = Plain(s: string) | Styled(style: Style, body: seq<Text>)

  /** One `console.log` call: its pieces in order. A logged entry may span
      several terminal lines when its text holds newlines. */
  type Line = seq<Text>

  /** `color.<style>(s)` applied to a literal string. */
  function Paint(style: Style, s: string): Text
  {
    Styled(style, [Plain(s)])
  }
}
